=== FILE: README.md ===
# FAA chart parser: AIRAC cycles and chart synchronisation

This project models the core of the FAA chart parser in Dafny. The parser
works out today's AIRAC cycle, the 28-day aeronautical publication cycle.
It reads the d-TPP metafile of that cycle. It then synchronises a table of
airport charts with the metafile.

There are three pieces:

- **Computed cycle arithmetic** (`faa/src/lib.rs`, modules `CycleClock`,
  `CivilDate` and `DateText`). Cycle-start dates form a 28-day lattice
  anchored at 2023-01-26. A date becomes a `YYNN` code, and a code becomes
  its start and end dates. Dates are proleptic-Gregorian `(y, m, d)` values
  with a day number (`DayNumber`). Text is the canonical `YYYY-MM-DD` form
  that chrono prints. The source compares date text as strings, and
  `DateText.CompareFormat` proves that this string order is date order for
  that form. Rust's truncating `/` and `%` are written out (`RustDiv28`,
  `RustRem28`).
- **Table lookup** (`src/faa.rs`, module `AiracTable`). This is the static
  `AIRAC_DATES` table of 39 cycles (2401 to 2613). It has a membership test
  on start dates. `get_cycle_for` searches it pair by pair, using
  itertools' `tuples()`.
- **Ingestion and reconciliation** (`src/main.rs`, modules `ChartDocument`,
  `Ingest`, `ChartStore`, `Reconcile`, `StatesList` and `Sync`):
  - `parse_data` walks states, cities, airports and charts, and builds one
    upsert row per chart.
  - A chart table is a `map<string, Row>` keyed by the chart id.
  - `update_chart`'s `INSERT … ON DUPLICATE KEY UPDATE` is `Upsert`.
  - The `DELETE … WHERE cycle != ?` sweep is `Sweep`.
  - A run's store side (`Reconcile.ApplyRun`) is the upserts in emission
    order, then the sweep, and only when every upsert completed. Which
    upsert fails, if any, is an input (`failAt`).
  - The `STATES` setting is split on commas (`StatesList`).
  - `Sync.Execute` is the whole run: the cycle-day gate, the settings and
    the store side.

Each defect found in the source has two versions: the code as written and
the evidently intended one (see "## Findings"). `Sync.Run` is the run
with the intended versions; `Sync.RunAsWritten` is the code as written.

Behaviours of the code that the model keeps as written:

- `number_of_cycles_in_year` gives 14 or 15, not 13 or 14.
- `first_cycle_of_year` scans one day at a time. It is not a closed form.
  `CycleClock.FirstCycleOfYear` is the closed form, and
  `FirstCycleOfYearIsScan` proves it equals the scan.
- The upsert keeps the stored `airport_id` when the id already exists.
- The chart id joins its parts with `-`. Distinct charts can collide when
  an airport ident contains `-`.

## Model

| member | source | states |
|---|---|---|
| CivilDate.AddDays | faa/src/lib.rs:77-78 | Adding `k` days (chrono `+ Duration::days(k)`) gives a valid date whose day number is exactly `k` more |
| CivilDate.NextDay | faa/src/lib.rs:15 | The day after a valid date is valid and one day number later, across month and year ends |
| CivilDate.DayNumberInjective | faa/src/lib.rs:8 | Two valid dates with equal day numbers are the same date, so day differences identify dates |
| DateText.ParseFormat | faa/src/lib.rs:6 | Parsing the canonical text of a four-digit-year date gives that date back |
| DateText.FormatParse | faa/src/lib.rs:17 | Canonical text is exactly what formatting a date produces: formatting the parsed date gives the same text |
| DateText.CompareFormat | faa/src/lib.rs:49 | Comparing two canonical date texts as strings gives the same answer as comparing the dates' day numbers |
| DateText.YearPrefixOfCanonical | faa/src/lib.rs:43 | The integer before the first `-` of canonical text is the date's year |
| CycleClock.IsCycleDate | faa/src/lib.rs:4-10 | True exactly when the day difference from 2023-01-26 is a multiple of 28, before the epoch as well, despite Rust's signed remainder |
| CycleClock.CycleDateShift | faa/src/lib.rs:4-10 | From a cycle date, moving `k` days lands on a cycle date iff `k` is a multiple of 28 |
| CycleClock.ScanForCycleDate | faa/src/lib.rs:14-16 | The day-by-day scan stops at a cycle date, at most 27 days ahead, at the closed-form distance |
| CycleClock.FirstCycleOfYear | faa/src/lib.rs:12-18 | The first cycle of year `y` is a cycle date in January of `y`, 0 to 27 days after January 1 |
| CycleClock.FirstCycleOfYearIsScan | faa/src/lib.rs:12-18 | The closed form equals where the source's scan from January 1 stops |
| CycleClock.FirstCycleIsFirst | faa/src/lib.rs:14 | No date from January 1 up to the first cycle of the year is a cycle date |
| CycleClock.FirstCycleOfYearUnique | faa/src/lib.rs:12-18 | Any cycle date in January 1–28 of `y` is that year's first cycle |
| CycleClock.CyclesBetweenDates | faa/src/lib.rs:27-32 | For `d1 <= d2` the result `n` is the 1-based 28-day slot of `d2` counted from `d1`; for `d2 < d1` the bounds implied by truncating division |
| CycleClock.FirstCyclesApart | faa/src/lib.rs:20-25 | Consecutive years' first cycles are exactly 13 or 14 cycles apart |
| CycleClock.NumberOfCyclesInYear | faa/src/lib.rs:20-25 | As written the count is 14 or 15. Next year's first cycle is `n - 1` cycles after this year's, and cycle `n - 1` still starts in `y` |
| CycleClock.CyclesInYear | faa/src/lib.rs:20-25 | Intended count: 13 or 14, the number of cycles starting in `y`; cycle `n + 1` is next year's first |
| CycleClock.NumberOfCyclesOffByOne | faa/src/lib.rs:20-25 | The code's count is the intended count plus one, for every year |
| CycleClock.SplitYear | faa/src/lib.rs:34-38 | Dropping the first two characters of a four-digit year's text and parsing the rest gives `y mod 100` |
| CycleClock.CalculateCycle | faa/src/lib.rs:40-65 | `None` exactly when the text before the first `-` is not an `i64`; otherwise four ASCII digits |
| CycleClock.CalculateCycleOfDate | faa/src/lib.rs:49-63 | On canonical text, `calculate_cycle` returns the code of `CycleOfDate`: the previous year's `number_of_cycles_in_year` before the first cycle, otherwise the slot ordinal |
| CycleClock.SlotOrdinal | faa/src/lib.rs:58-63 | From its year's first cycle on, a date's ordinal `n` is in `1..CyclesInYear(y)` with `first + (n-1)*28 <= d < first + n*28` |
| CycleClock.SlotIsCyclesBetween | faa/src/lib.rs:59-63 | `cycles_between_dates(first(y), d)` is that slot ordinal, which is 1 on the first cycle itself (the `Equal` branch) |
| CycleClock.FixedCycleDiffers | faa/src/lib.rs:50-57 | The as-written and intended codes agree from the first cycle on; before it, the as-written ordinal is one higher |
| CycleClock.CalculateCycleDates | faa/src/lib.rs:67-81 | The start is a cycle date `(NN - 1) * 28` days after the first cycle of `20YY`; the end is 27 days after the start; both are canonical text |
| CycleClock.CycleCodeDecodes | faa/src/lib.rs:67-81 | Decoding the code of cycle `(y, n)` of 2000–2099 gives `first(y) + (n-1)*28` and the day 27 days later |
| CycleClock.CycleCodeRoundTrip | faa/src/lib.rs:40-81 | Every cycle-start date of 2000–2099: decoding its code gives back its own text as start |
| CycleClock.CycleDatesRoundTrip | faa/src/lib.rs:40-81 | The same round trip on text: `calculate_cycle_dates(calculate_cycle(s)).0 == s` for every canonical cycle-start text of 2000–2099 |
| CycleClock.CycleContainsDateFromFirst | faa/src/lib.rs:58-63 | A date on or after its year's first cycle lies inside the range its code decodes to |
| CycleClock.LastCodeStartsNextYear | faa/src/lib.rs:55 | As written, code `(y, number_of_cycles_in_year(y))` decodes to a range starting at the first cycle of `y + 1` |
| CycleClock.CycleMissesDateBeforeFirst | faa/src/lib.rs:50-57 | As written, a date before its year's first cycle gets a code whose range starts at that first cycle, so the range does not contain the date |
| CycleClock.FixedCycleOfSlot | faa/src/lib.rs:50-63 | Intended numbering: exactly the dates of the `n`-th 28-day slot from `first(y)` are numbered `(y, n)`, including early-January days of `y + 1` |
| CycleClock.FixedCycleContainsDate | faa/src/lib.rs:50-57 | Intended: every date of 2001–2099 gets an ordinal in 1..14 and lies inside the range its code decodes to |
| CycleClockExamples.IsCycleDateExamples | faa/src/lib.rs:89-90 | 2023-12-28 is a cycle date and 2023-12-27 is not |
| CycleClockExamples.FirstCycleOf2023 | faa/src/lib.rs:92 | The first cycle of 2023 is 2023-01-26 |
| CycleClockExamples.CycleCountExamples | faa/src/lib.rs:94-95 | As written 2023 gives 14 and 2020 gives 15, where the tests expect 13 and 14; the intended count gives 13 and 14 |
| CycleClockExamples.CyclesBetweenExamples | faa/src/lib.rs:97-98 | From 2023-01-26, 2023-02-22 is in slot 1 and 2023-02-23 is in slot 2 |
| CycleClockExamples.CalculateCycleOfEpoch | faa/src/lib.rs:103 | `calculate_cycle("2023-01-26") == "2301"` |
| CycleClockExamples.CalculateCycleOfNewYear2023 | faa/src/lib.rs:104 | As written `calculate_cycle("2023-01-01")` is `"2214"`, where the test expects `"2213"`; the intended version gives `"2213"` |
| CycleClockExamples.CalculateCycleOfInvalidText | faa/src/lib.rs:105 | `calculate_cycle("invaliddate")` is `None` |
| CycleClockExamples.CalculateCycleDatesOf2301 | faa/src/lib.rs:107-111 | `calculate_cycle_dates("2301") == ("2023-01-26", "2023-02-22")` |
| AiracTable.StartDays | src/faa.rs:33-78 | The table has 39 valid entries; entry `i` starts `28 * i` days after 2024-01-25, except entry 2507, which starts 2 days later |
| AiracTable.Codes | src/faa.rs:35-76 | Codes run 2401–2413, 2501–2513, 2601–2613 in table order |
| AiracTable.TableIncreasing | src/faa.rs:33-78 | Codes and start dates both strictly increase along the table |
| AiracTable.TableSpacing | src/faa.rs:55-57 | Consecutive starts are 28 days apart, except 2506→2507 (30 days) and 2507→2508 (26 days) |
| AiracTable.CorrectedSpacing | src/faa.rs:55-57 | With 2507 on 2025-07-10, every pair of consecutive starts is exactly 28 days apart |
| AiracTable.TableOnLattice | src/faa.rs:33-78 | Every start except 2507's is a cycle date of the computed lattice; every corrected start is one |
| AiracTable.TableIsCycleDateIff | src/faa.rs:82-86 | The membership test holds exactly for canonical text of some entry's start date |
| AiracTable.PairScanFirstMatch | src/faa.rs:107-112 | The pair loop answers `None` iff no disjoint pair `(2k, 2k+1)` encloses the date; otherwise it answers the first entry of the first such pair |
| AiracTable.ScanPairs | src/faa.rs:107-112 | The loop over `tuples()` computes the pair scan |
| AiracTable.GetCycleFor | src/faa.rs:92-113 | Text that does not parse gives `None`; parsed text gives the pair scan over the table as written |
| AiracTable.PairScanExact | src/faa.rs:107-111 | On an increasing table, the pair that encloses the date decides the answer, and no enclosing pair means `None` |
| AiracTable.PairLookupHit | src/faa.rs:107-111 | A date in the window of pair `k` (days `56k..56k+28`, or `+30` for 2506/2507) answers entry `2k` |
| AiracTable.PairLookupMiss | src/faa.rs:88-112 | Every other date answers `None`: the gaps after each pair, dates before 2401 and dates after 2612's start (2026-11-26) |
| AiracTable.LastEntryNeverAnswers | src/faa.rs:107-112 | No date answers entry 2613 |
| AiracTable.WindowScanEven | src/faa.rs:101-106 | On an evenly spaced table, the sliding-window scan answers the entry whose 28 days hold the date |
| AiracTable.GetCycleForFixed | src/faa.rs:92-106 | Intended lookup: `None` for unparsable text, otherwise the corrected entry whose 28 days hold the date |
| AiracTable.CorrectedLookupContains | src/faa.rs:88-106 | Intended lookup answers exactly for dates from 2024-01-25 to the end of 2613's cycle, with the entry holding the date |
| AiracTable.TableAgreesWithCalculation | src/faa.rs:88-112 | Within the table's span, the intended lookup's code equals the code the intended computation gives for the date |
| AiracTableExamples.SecondStartAnswersFirst | src/faa.rs:107-111 | As written 2024-02-22 answers 2401; intended, 2402 |
| AiracTableExamples.GapAnswersNothing | src/faa.rs:107-112 | As written 2024-03-01 answers `None`; intended, 2402 |
| AiracTableExamples.LastStartAnswersNothing | src/faa.rs:107-112 | As written 2026-12-24 answers `None`; intended, 2613 |
| Ingest.ChartType | src/main.rs:179-182 | The type is one of `DP`, `STAR`, `IAP`, or `OTHER` |
| Ingest.ChartTypeFixedPoints | src/main.rs:179-182 | A code is kept as its type iff it is `DP`, `STAR`, `IAP` (or `OTHER`); any other code becomes `OTHER` |
| Ingest.ParseData | src/main.rs:159-204 | The loops emit exactly `DocumentRows` in order; `chart_count` is the number of rows emitted; `airport_count` counts ingested airports of selected states |
| Ingest.ParseCities | src/main.rs:163-165 | The city loop with the state test inside emits its cities' rows only when the state is selected |
| Ingest.ParseAirports | src/main.rs:165-177 | Airports without `apt_ident` or `records` are skipped and not counted; the others are counted and emit their charts' rows |
| Ingest.ParseCharts | src/main.rs:178-200 | One row per chart, in order |
| Ingest.DocumentRowsMembers | src/main.rs:162-200 | A row is emitted iff a selected state has a city with an ingested airport that has a chart producing that row |
| Ingest.EmittedRowFields | src/main.rs:184-197 | Every emitted row carries the run's cycle and dates, a known type or `OTHER`, id `FAA-apt-type-name` from its own fields, and a URL under `https://aeronav.faa.gov/d-tpp/{cycle}/` |
| Ingest.UnselectedStateEmitsNothing | src/main.rs:162-165 | A state not on the allow-list, when `ALL` is absent, emits no rows and counts no airports |
| Ingest.ChartIdInjective | src/main.rs:187 | When neither the ident nor the type contains `-`, the id determines airport, type and name |
| Ingest.ChartIdCollision | src/main.rs:187 | With `-` in an ident and in a chart name (as in `VOR-A`), two different charts share an id |
| Ingest.CountingExamples | src/main.rs:166-177 | An airport with an empty record list is counted but emits nothing; one without an ident is neither counted nor emits |
| ChartStore.Upsert | src/main.rs:225-234 | The key set grows by the row's id; that key gets the row's columns but keeps an existing `airport_id`; every other row is unchanged |
| ChartStore.UpsertIdempotent | src/main.rs:225-234 | Upserting the same row twice equals upserting it once |
| ChartStore.UpsertAllAt | src/main.rs:225-247 | After a sequence of upserts, an id holds its last row's columns with the old `airport_id` (or the first row's if it was new); other keys are untouched |
| ChartStore.UpsertAllIdempotent | src/main.rs:225-247 | Repeating the upsert sequence leaves the store unchanged, including `airport_id` under repeated ids |
| ChartStore.Sweep | src/main.rs:135-139 | Exactly the rows of the current cycle survive, untouched |
| ChartStore.SweepIdempotent | src/main.rs:135-139 | Sweeping twice equals sweeping once |
| ChartStore.UpsertThenSweep | src/main.rs:124-139 | After upserting current-cycle rows and sweeping, every emitted id is present with its last row's columns, every survivor is of the current cycle, and survivors no row carried are untouched |
| ChartStore.UpsertThenSweepIdempotent | src/main.rs:124-139 | A second identical upsert-then-sweep leaves the table as the first left it |
| StatesList.JoinSplit | src/main.rs:79-83 | Splitting `STATES` on commas loses nothing: the pieces join back to the text |
| StatesList.SplitJoin | src/main.rs:79-83 | Comma-free pieces are what splitting their join gives |
| Sync.RowsOfRunCycle | src/main.rs:186-197 | Every row a run emits carries the run's cycle code |
| Reconcile.PanicSkipsSweep | src/main.rs:124-139 | When an upsert panics, no sweep runs: other tables are unchanged, the written table loses no row, and rows no completed upsert touched keep their columns |
| Reconcile.CompletedRunState | src/main.rs:124-139 | After a completed run that sweeps the table it wrote, every row left is of the current cycle and every emitted id is present with its row's columns |
| Reconcile.SweepOtherTable | src/main.rs:69-73 | A run that sweeps another table than it wrote keeps every stale row of the written table and deletes stale rows of a table it never wrote |
| Reconcile.ApplyRunIdempotent | src/main.rs:124-139 | After a completed run, repeating the store side with the same rows and failures changes nothing |
| Sync.RunIdempotent | src/main.rs:50-144 | A whole run repeated after a completed one, with the same date, settings, document and failures, leaves the database unchanged |
| Sync.SweepTables | src/main.rs:69-139 | As written the run writes `DB_TABLE` and sweeps `airport_charts`; as intended it sweeps the table it wrote |
| Sync.StaleRowsSurvive | src/main.rs:69-139 | As written, when `DB_TABLE` names another existing table, a completed run leaves every stale row of `DB_TABLE` the document did not refresh and deletes the stale rows of `airport_charts`, which it never wrote |

## Left out

- Environment and process control of `main` (`FORCE`, `STATES`, `DB_*`,
  `exit` codes, printing). These are inputs of `Sync.Execute` (the `Env`
  datatype) or are not modelled.
- `chrono::Local::now`: today's date is a parameter of the run.
- The HTTP fetch of the metafile and its on-disk cache `d-tpp.xml`. These
  are I/O. Reusing a stale cached file is not modelled.
- XML decoding (serde / serde_xml_rs) and `src/models.rs`.
  `ChartDocument` mirrors the decoded shapes. A decoding failure is a panic
  before any store write, so it is not modelled.
- MySQL, the SQL text, connection pooling and async execution. A table is
  an abstract map. A failing upsert is an input (`failAt`). A missing table
  makes the first upsert fail and makes the sweep fail.
- Logging (`log::error` in `get_cycle_for`).
- CycleClock.CalculateCycle: its input is either text whose year prefix is
  not an `i64`, or canonical `YYYY-MM-DD` text of a date with a year from
  1001 to 9999. Other text with an integer prefix is left out. On such
  text the source panics when chrono cannot parse it as a date. When
  chrono does parse it (an unpadded or space-padded date), the source
  answers from the full date after a string comparison with the first
  cycle that no longer orders it: `2023-1-5` compares greater than
  `2023-01-26` and gets `2301`, while `2023-01-05` gets `2214`. Years
  without four digits break `split_year`.
- CycleClock.CalculateCycleDates: it reads the century as `20`, so the
  round trip lemmas hold for 2000–2099 only. `CycleMissesDateBeforeFirst`
  and `FixedCycleContainsDate` need 2001–2099: a date in early January
  2000 gets a code `99NN`, which decodes into 2099.
- CycleClock.CalculateCycleDates: a signed ordinal such as `23-1` or
  `23+5` parses as an `i64` and yields a date range in the source; the
  model takes only codes whose first four characters are digits, which is
  all any caller passes (`calculate_cycle` output).
- CycleClock.IsCycleDate: takes a date rather than text. The source's
  `parse().unwrap()` panics on text that is not a date.
- AiracTable.GetCycleFor: only canonical `YYYY-MM-DD` text parses.
  chrono's `%Y-%m-%d` also accepts some non-canonical forms, and those
  answer `None` here.
- Integer widths: `i64`, `i32` and `u16` overflow cannot happen on the
  modelled range, so the integers are unbounded.

## Findings

| source | as written | input that shows it | evidently intended | confidence | as-written member | corrected member |
|---|---|---|---|---|---|---|
| faa/src/lib.rs:20-25 | `cycles_between_dates(first(y), first(y+1))` counts next year's first cycle too | year 2023: 14 (the test expects 13); 2020: 15 (the test expects 14) | the number of cycles starting in `y`, 13 or 14 | high, proved for every year; not executed | CycleClock.NumberOfCyclesOffByOne | CycleClock.CyclesInYear |
| faa/src/lib.rs:50-57 | a date before its year's first cycle gets `(y-1, number_of_cycles_in_year(y-1))` | `2023-01-01` gives `2214`, which decodes to 2023-01-26..2023-02-22 and does not contain the date (the test expects `2213`) | the previous year's last cycle, which contains the date | high; not executed | CycleClock.CycleMissesDateBeforeFirst | CycleClock.FixedCycleContainsDate |
| src/faa.rs:107-111 | three deviations from the comment at lines 101-106, which asks for the entry the date is just after, before the next one: (1) `tuples()` gives disjoint pairs (0,1), (2,3), …, not sliding windows; (2) the test `dt <= b.start` at line 108 includes the second entry's start; (3) the last entry, 2613, has no successor and so no window under any pairing | (1) `2024-03-01` gives `None`; (2) `2024-02-22`, the start of 2402, gives 2401; (3) `2026-12-24`, the start of 2613, gives `None` | each entry answers from its start up to, not including, the next entry's start; 2613, with no successor, answers for its 28 days, which extends the comment | high; not executed | AiracTable.PairLookupMiss | AiracTable.CorrectedLookupContains |
| src/faa.rs:56 | entry 2507 starts on 2025-07-12 | 2506→2507 is 30 days and 2507→2508 is 26 days; 2025-07-12 is not on the 28-day lattice | 2025-07-10 | high; not executed | AiracTable.TableSpacing | AiracTable.CorrectedSpacing |
| src/main.rs:136 | the sweep deletes from the fixed table `airport_charts`, while the upserts write `DB_TABLE` | with `DB_TABLE` naming another table, that table's stale rows survive and `airport_charts` loses its stale rows | sweep the table the upserts wrote | high; not executed | Reconcile.SweepOtherTable | Reconcile.CompletedRunState |

=== FILE: airac_table.dfy ===
/** The static AIRAC table of the chart service: 39 cycles from 2401 to
    2613, the membership test on its start dates and the lookup of the cycle
    a date falls in. */
module AiracTable {

  import opened Wrappers
  import opened CivilDate
  import opened DateText
  import opened CycleClock

  /** An AIRAC cycle: its `YYNN` code (`u16`) and its start date. */
  datatype Airac = Airac(code: int, start: Date)

  /** `AIRAC_DATES`, as written. */
  const AiracDates: seq<Airac> := [
      // 2024
      Airac(2401, Date(2024, 1, 25)),
      Airac(2402, Date(2024, 2, 22)),
      Airac(2403, Date(2024, 3, 21)),
      Airac(2404, Date(2024, 4, 18)),
      Airac(2405, Date(2024, 5, 16)),
      Airac(2406, Date(2024, 6, 13)),
      Airac(2407, Date(2024, 7, 11)),
      Airac(2408, Date(2024, 8, 8)),
      Airac(2409, Date(2024, 9, 5)),
      Airac(2410, Date(2024, 10, 3)),
      Airac(2411, Date(2024, 10, 31)),
      Airac(2412, Date(2024, 11, 28)),
      Airac(2413, Date(2024, 12, 26)),
      // 2025
      Airac(2501, Date(2025, 1, 23)),
      Airac(2502, Date(2025, 2, 20)),
      Airac(2503, Date(2025, 3, 20)),
      Airac(2504, Date(2025, 4, 17)),
      Airac(2505, Date(2025, 5, 15)),
      Airac(2506, Date(2025, 6, 12)),
      Airac(2507, Date(2025, 7, 12)),
      Airac(2508, Date(2025, 8, 7)),
      Airac(2509, Date(2025, 9, 4)),
      Airac(2510, Date(2025, 10, 2)),
      Airac(2511, Date(2025, 10, 30)),
      Airac(2512, Date(2025, 11, 27)),
      Airac(2513, Date(2025, 12, 25)),
      // 2026
      Airac(2601, Date(2026, 1, 22)),
      Airac(2602, Date(2026, 2, 19)),
      Airac(2603, Date(2026, 3, 19)),
      Airac(2604, Date(2026, 4, 16)),
      Airac(2605, Date(2026, 5, 14)),
      Airac(2606, Date(2026, 6, 11)),
      Airac(2607, Date(2026, 7, 9)),
      Airac(2608, Date(2026, 8, 6)),
      Airac(2609, Date(2026, 9, 3)),
      Airac(2610, Date(2026, 10, 1)),
      Airac(2611, Date(2026, 10, 29)),
      Airac(2612, Date(2026, 11, 26)),
      Airac(2613, Date(2026, 12, 24))
    ]

  /** Index of entry 2507 in the table. */
  const Entry2507: int := 19

  /** The table with entry 2507 on its evidently intended date, 2025-07-10,
      28 days after 2506. */
  const CorrectedAiracDates: seq<Airac> := AiracDates[Entry2507 := Airac(2507, Date(2025, 7, 10))]

  /** Day number of the first entry, 2024-01-25. */
  const FirstStartDay: int := 738909

  /** Every start is a real date with a four-digit year. */
  predicate ValidTable(t: seq<Airac>)
  {
    forall i :: 0 <= i < |t| ==> Valid(t[i].start) && FourDigitYear(t[i].start)
  }

  lemma NewYears2024To2026()
    ensures DaysBeforeYear(2024) == 738885
    ensures DaysBeforeYear(2025) == 739251
    ensures DaysBeforeYear(2026) == 739616
  {
    DaysBeforeYearFormula(2024);
    YearStep(2024);
    YearStep(2025);
  }

  lemma TableLength()
    ensures |AiracDates| == 39
  {
  }

  /** The start days of the table as written: every 28 days from
      2024-01-25, except entry 2507, two days late. */
  lemma StartDays()
    ensures |AiracDates| == 39 && ValidTable(AiracDates)
    ensures forall i :: 0 <= i < |AiracDates| ==>
      DayNumber(AiracDates[i].start) == FirstStartDay + CycleDays * i + (if i == Entry2507 then 2 else 0)
  {
    StartDays2024();
    StartDays2025();
    StartDays2026();
  }

  lemma StartDays2024()
    ensures forall i :: 0 <= i < 13 ==>
      && Valid(AiracDates[i].start) && FourDigitYear(AiracDates[i].start)
      && DayNumber(AiracDates[i].start) == FirstStartDay + CycleDays * i + (if i == Entry2507 then 2 else 0)
  {
    NewYears2024To2026();
  }

  lemma StartDays2025()
    ensures forall i :: 13 <= i < 26 ==>
      && Valid(AiracDates[i].start) && FourDigitYear(AiracDates[i].start)
      && DayNumber(AiracDates[i].start) == FirstStartDay + CycleDays * i + (if i == Entry2507 then 2 else 0)
  {
    NewYears2024To2026();
  }

  lemma StartDays2026()
    ensures forall i :: 26 <= i < 39 ==>
      && Valid(AiracDates[i].start) && FourDigitYear(AiracDates[i].start)
      && DayNumber(AiracDates[i].start) == FirstStartDay + CycleDays * i + (if i == Entry2507 then 2 else 0)
  {
    NewYears2024To2026();
  }

  /** The codes run 01..13 within each of 2024, 2025 and 2026. */
  lemma Codes()
    ensures |AiracDates| == 39
    ensures forall i :: 0 <= i < |AiracDates| ==>
      AiracDates[i].code == if i < 13 then 2401 + i else if i < 26 then 2501 + (i - 13) else 2601 + (i - 26)
  {
  }

  /** Codes and start dates both strictly increase along the table. */
  lemma TableIncreasing(i: int, j: int)
    requires 0 <= i < j < |AiracDates|
    ensures AiracDates[i].code < AiracDates[j].code
    ensures Valid(AiracDates[i].start) && Valid(AiracDates[j].start)
    ensures DayNumber(AiracDates[i].start) < DayNumber(AiracDates[j].start)
  {
    assert AiracDates[i].code < AiracDates[j].code by {
      Codes();
    }
    StartDays();
  }

  /** Consecutive starts are 28 days apart except around 2507: 2506 to 2507
      is 30 days and 2507 to 2508 is 26. */
  lemma TableSpacing(i: int)
    requires 0 <= i < |AiracDates| - 1
    ensures Valid(AiracDates[i].start) && Valid(AiracDates[i + 1].start)
    ensures DayNumber(AiracDates[i + 1].start) - DayNumber(AiracDates[i].start)
         == if i == Entry2507 - 1 then 30 else if i == Entry2507 then 26 else CycleDays
  {
    StartDays();
  }

  /** With 2507 on 2025-07-10 the table is evenly spaced. */
  lemma CorrectedStartDays()
    ensures |CorrectedAiracDates| == 39 && ValidTable(CorrectedAiracDates)
    ensures forall i :: 0 <= i < |CorrectedAiracDates| ==>
      && CorrectedAiracDates[i].code == AiracDates[i].code
      && DayNumber(CorrectedAiracDates[i].start) == FirstStartDay + CycleDays * i
  {
    StartDays();
    NewYears2024To2026();
    assert DayNumber(Date(2025, 7, 10)) == FirstStartDay + CycleDays * Entry2507;
  }

  lemma CorrectedSpacing(i: int)
    requires 0 <= i < |CorrectedAiracDates| - 1
    ensures Valid(CorrectedAiracDates[i].start) && Valid(CorrectedAiracDates[i + 1].start)
    ensures DayNumber(CorrectedAiracDates[i + 1].start) - DayNumber(CorrectedAiracDates[i].start) == CycleDays
  {
    CorrectedStartDays();
  }

  /** Against the computed lattice: every corrected start is a cycle date,
      and of the table as written every start but 2507's is. */
  lemma TableOnLattice(i: int)
    requires 0 <= i < |AiracDates|
    ensures Valid(AiracDates[i].start) && Valid(CorrectedAiracDates[i].start)
    ensures IsCycleDate(CorrectedAiracDates[i].start)
    ensures IsCycleDate(AiracDates[i].start) <==> i != Entry2507
  {
    var x := (13 + i) * CycleDays;
    WholeCycles(13 + i);
    LatticeShift(x, 2);
    assert DaysSinceEpoch(CorrectedAiracDates[i].start) == x by {
      CorrectedStartDays();
    }
    assert DaysSinceEpoch(AiracDates[i].start) == x + (if i == Entry2507 then 2 else 0) by {
      StartDays();
    }
  }

  /** `is_cycle_date` of the table: the text equals the formatted start of
      some entry. */
  function TableIsCycleDate(t: seq<Airac>, s: string): (b: bool)
    requires ValidTable(t)
  {
    |t| > 0 && (Format(t[0].start) == s || TableIsCycleDate(t[1..], s))
  }

  /** It holds exactly for the canonical text of a start date in the table. */
  lemma {:induction false} TableIsCycleDateIff(t: seq<Airac>, s: string)
    requires ValidTable(t)
    ensures TableIsCycleDate(t, s) <==>
      ParseCanonical(s).Some? && exists i :: 0 <= i < |t| && t[i].start == ParseCanonical(s).value
  {
    if |t| > 0 {
      TableIsCycleDateIff(t[1..], s);
      ParseFormat(t[0].start);
      if ParseCanonical(s).Some? {
        FormatParse(s);
        var d := ParseCanonical(s).value;
        if exists i :: 0 <= i < |t| && t[i].start == d {
          var i :| 0 <= i < |t| && t[i].start == d;
          if i > 0 {
            assert t[1..][i - 1].start == d;
          }
        }
      }
    }
  }

  /** Pair `k` of `tuples()` (entries `2k` and `2k + 1`) holds the date:
      it lies between their starts, both ends included. */
  predicate PairHolds(t: seq<Airac>, k: int, dt: Date)
    requires ValidTable(t) && Valid(dt)
  {
    0 <= k && 2 * k + 1 < |t| && DayNumber(t[2 * k].start) <= DayNumber(dt) <= DayNumber(t[2 * k + 1].start)
  }

  /** The loop of `get_cycle_for` from pair `k` on, as written: the disjoint
      pairs of `tuples()` in order, the first holding the date answering
      with its first entry. */
  function PairScan(t: seq<Airac>, k: nat, dt: Date): Option<Airac>
    requires ValidTable(t) && Valid(dt)
    decreases |t| - 2 * k
  {
    if 2 * k + 1 >= |t| then None
    else if PairHolds(t, k, dt) then Some(t[2 * k])
    else PairScan(t, k + 1, dt)
  }

  /** The scan answers exactly when some pair from `k` on holds the date,
      and then with the first entry of the first such pair. */
  lemma {:induction false} PairScanFirstMatch(t: seq<Airac>, k: nat, dt: Date)
    requires ValidTable(t) && Valid(dt)
    ensures PairScan(t, k, dt).None? <==> forall j :: k <= j ==> !PairHolds(t, j, dt)
    ensures PairScan(t, k, dt).Some? ==>
      exists j :: k <= j && PairHolds(t, j, dt) && PairScan(t, k, dt).value == t[2 * j]
        && forall m :: k <= m < j ==> !PairHolds(t, m, dt)
    decreases |t| - 2 * k
  {
    if 2 * k + 1 < |t| && !PairHolds(t, k, dt) {
      PairScanFirstMatch(t, k + 1, dt);
      if PairScan(t, k, dt).Some? {
        var j :| k + 1 <= j && PairHolds(t, j, dt) && PairScan(t, k, dt).value == t[2 * j]
          && forall m :: k + 1 <= m < j ==> !PairHolds(t, m, dt);
        assert forall m :: k <= m < j ==> !PairHolds(t, m, dt);
      } else {
        assert forall j :: k <= j ==> !PairHolds(t, j, dt);
      }
    }
  }

  /** The loop of `get_cycle_for` over a table: pairs `(t[2k], t[2k + 1])`
      in order, returning the first entry of the first pair whose starts
      enclose the date. */
  method ScanPairs(t: seq<Airac>, dt: Date) returns (r: Option<Airac>)
    requires ValidTable(t) && Valid(dt)
    ensures r == PairScan(t, 0, dt)
  {
    var k := 0;
    while 2 * k + 1 < |t|
      invariant 0 <= k && 2 * k <= |t| + 1
      invariant PairScan(t, k, dt) == PairScan(t, 0, dt)
      decreases |t| - 2 * k
    {
      var a, b := t[2 * k], t[2 * k + 1];
      if DayNumber(a.start) <= DayNumber(dt) && DayNumber(dt) <= DayNumber(b.start) {
        return Some(a);
      }
      k := k + 1;
    }
    return None;
  }

  /** `get_cycle_for`: `None` for text that does not parse as a date,
      otherwise the pair loop over the table as written. */
  method GetCycleFor(s: string) returns (r: Option<Airac>)
    ensures ParseCanonical(s).None? ==> r.None?
    ensures ParseCanonical(s).Some? ==> TableValid() && r == PairScan(AiracDates, 0, ParseCanonical(s).value)
  {
    var parsed := ParseCanonical(s);
    if parsed.None? {
      return None;
    }
    assert TableValid() by { StartDays(); }
    r := ScanPairs(AiracDates, parsed.value);
  }

  /** The table's starts are valid dates (`StartDays` proves it). */
  predicate TableValid()
  {
    ValidTable(AiracDates)
  }

  /** Start dates strictly increase along the table. */
  predicate Increasing(t: seq<Airac>)
    requires ValidTable(t)
  {
    forall i, j :: 0 <= i < j < |t| ==> DayNumber(t[i].start) < DayNumber(t[j].start)
  }

  lemma AiracDatesIncreasing()
    ensures ValidTable(AiracDates) && Increasing(AiracDates)
  {
    StartDays();
    forall i, j | 0 <= i < j < |AiracDates|
      ensures DayNumber(AiracDates[i].start) < DayNumber(AiracDates[j].start)
    {
      TableIncreasing(i, j);
    }
  }

  /** On an increasing table at most one pair holds a date, so the scan
      answers with the first entry of the pair holding it, and with `None`
      when no pair does. */
  lemma PairScanExact(t: seq<Airac>, dt: Date)
    requires ValidTable(t) && Increasing(t) && Valid(dt)
    ensures forall k :: PairHolds(t, k, dt) ==> PairScan(t, 0, dt) == Some(t[2 * k])
    ensures PairScan(t, 0, dt).None? <==> forall k :: !PairHolds(t, k, dt)
  {
    PairScanFirstMatch(t, 0, dt);
    forall k | PairHolds(t, k, dt)
      ensures PairScan(t, 0, dt) == Some(t[2 * k])
    {
      var j :| 0 <= j && PairHolds(t, j, dt) && PairScan(t, 0, dt).value == t[2 * j]
        && forall m :: 0 <= m < j ==> !PairHolds(t, m, dt);
      PairsDisjoint(t, j, k, dt);
    }
  }

  /** On an increasing table two pairs holding the same date are one pair. */
  lemma PairsDisjoint(t: seq<Airac>, j: int, k: int, dt: Date)
    requires ValidTable(t) && Increasing(t) && Valid(dt)
    requires PairHolds(t, j, dt) && PairHolds(t, k, dt)
    ensures j == k
  {
  }

  /** The starts of pair `k` in day offsets from 2024-01-25: `56k` and
      `56k + 28`, or `56k + 30` for the pair 2506/2507. */
  lemma PairStarts(k: int)
    requires 0 <= k && 2 * k + 1 < |AiracDates|
    ensures TableValid()
    ensures DayNumber(AiracDates[2 * k].start) == FirstStartDay + 56 * k
    ensures DayNumber(AiracDates[2 * k + 1].start) == FirstStartDay + 56 * k + CycleDays + (if k == 9 then 2 else 0)
  {
    StartDays();
  }

  /** Offset `x` from 2024-01-25 falls in the window of pair `x / 56`:
      offsets `56k` through `56k + 28` (through `56k + 30` for the pair
      2506/2507), both included. */
  predicate InPairWindow(x: int)
  {
    0 <= x < 19 * 56 && x % 56 <= (if x / 56 == 9 then 30 else 28)
  }

  /** The lookup as written: a date in a pair's window answers with the
      first entry of that pair. */
  lemma PairLookupHit(dt: Date)
    requires Valid(dt) && InPairWindow(DayNumber(dt) - FirstStartDay)
    ensures TableValid()
    ensures PairScan(AiracDates, 0, dt) == Some(AiracDates[2 * ((DayNumber(dt) - FirstStartDay) / 56)])
  {
    var x := DayNumber(dt) - FirstStartDay;
    var k := x / 56;
    PairStarts(k);
    AiracDatesIncreasing();
    assert PairHolds(AiracDates, k, dt);
    PairScanExact(AiracDates, dt);
  }

  /** Every other date answers `None`: the 27 days after each pair (25
      after 2506/2507), every date before 2401 and every date after 2612's
      start (2026-11-26). Entry 2613 never answers. */
  lemma PairLookupMiss(dt: Date)
    requires Valid(dt) && !InPairWindow(DayNumber(dt) - FirstStartDay)
    ensures TableValid() && PairScan(AiracDates, 0, dt) == None
  {
    var x := DayNumber(dt) - FirstStartDay;
    AiracDatesIncreasing();
    forall k | 0 <= k && 2 * k + 1 < |AiracDates|
      ensures !PairHolds(AiracDates, k, dt)
    {
      PairStarts(k);
      OutsidePair(x, k);
    }
    PairScanExact(AiracDates, dt);
  }

  /** An offset outside every window lies outside pair `k`'s. */
  lemma OutsidePair(x: int, k: int)
    requires 0 <= k < 19 && !InPairWindow(x)
    ensures x < 56 * k || 56 * k + CycleDays + (if k == 9 then 2 else 0) < x
  {
    if 56 * k <= x < 56 * k + 56 {
      assert x / 56 == k;
    }
  }

  /** No date answers with the last entry, 2613: it is the second item of
      no pair, and the first items of the pairs are entries 0, 2, ..., 36. */
  lemma LastEntryNeverAnswers(dt: Date)
    requires Valid(dt)
    ensures TableValid() && PairScan(AiracDates, 0, dt) != Some(AiracDates[|AiracDates| - 1])
  {
    var x := DayNumber(dt) - FirstStartDay;
    if InPairWindow(x) {
      PairLookupHit(dt);
      var k := x / 56;
      assert 0 <= k <= 18;
      assert AiracDates[2 * k] != AiracDates[38] by {
        TableLength();
        TableIncreasing(2 * k, 38);
      }
    } else {
      PairLookupMiss(dt);
    }
  }

  /** The day the window of entry `i` ends (exclusive): the next entry's
      start, or 28 days on for the last entry. */
  function WindowEnd(t: seq<Airac>, i: int): int
    requires ValidTable(t) && 0 <= i < |t|
  {
    if i + 1 < |t| then DayNumber(t[i + 1].start) else DayNumber(t[i].start) + CycleDays
  }

  /** The intended lookup from entry `i` on: consecutive entries as
      half-open windows, the first window holding the date answering. */
  function WindowScan(t: seq<Airac>, i: nat, dt: Date): Option<Airac>
    requires ValidTable(t) && Valid(dt)
    decreases |t| - i
  {
    if i >= |t| then None
    else if DayNumber(t[i].start) <= DayNumber(dt) < WindowEnd(t, i) then Some(t[i])
    else WindowScan(t, i + 1, dt)
  }

  /** Every entry starts 28 days after the previous one, the first at `base`. */
  predicate EvenlySpaced(t: seq<Airac>, base: int)
    requires ValidTable(t)
  {
    forall j :: 0 <= j < |t| ==> DayNumber(t[j].start) == base + CycleDays * j
  }

  /** On an evenly spaced table the scan from `i` answers with the entry
      `(day - base) / 28` when that is `i` or later and inside the table. */
  lemma {:induction false} WindowScanEven(t: seq<Airac>, base: int, i: nat, dt: Date)
    requires ValidTable(t) && EvenlySpaced(t, base) && Valid(dt) && i <= |t|
    ensures var x := DayNumber(dt) - base;
      WindowScan(t, i, dt) == if CycleDays * i <= x < CycleDays * |t| then Some(t[x / CycleDays]) else None
    decreases |t| - i
  {
    var x := DayNumber(dt) - base;
    if i < |t| {
      WindowScanEven(t, base, i + 1, dt);
      if CycleDays * i <= x < CycleDays * i + CycleDays {
        assert x / CycleDays == i;
      }
    }
  }

  /** The corrected entry whose 28 days hold day offset `x` from
      2024-01-25, if any. */
  function CorrectedEntry(x: int): Option<Airac>
  {
    if 0 <= x < CycleDays * |CorrectedAiracDates| then Some(CorrectedAiracDates[x / CycleDays]) else None
  }

  /** The intended loop on a parsed date: the corrected table as half-open
      windows, the last entry covering its 28 days. */
  function CorrectedLookup(dt: Date): (r: Option<Airac>)
    requires Valid(dt)
    ensures r == CorrectedEntry(DayNumber(dt) - FirstStartDay)
  {
    CorrectedStartDays();
    WindowScanEven(CorrectedAiracDates, FirstStartDay, 0, dt);
    WindowScan(CorrectedAiracDates, 0, dt)
  }

  /** `get_cycle_for` as intended. */
  function GetCycleForFixed(s: string): (r: Option<Airac>)
    ensures ParseCanonical(s).None? ==> r.None?
    ensures ParseCanonical(s).Some? ==> r == CorrectedEntry(DayNumber(ParseCanonical(s).value) - FirstStartDay)
  {
    var parsed := ParseCanonical(s);
    if parsed.None? then None else CorrectedLookup(parsed.value)
  }

  /** Entry `a`'s 28 days hold the date. */
  predicate CycleHolds(a: Airac, dt: Date)
  {
    Valid(a.start) && Valid(dt) && DayNumber(a.start) <= DayNumber(dt) < DayNumber(a.start) + CycleDays
  }

  /** The intended lookup answers with the entry whose 28 days hold the
      date, for every date from 2401's start to the end of 2613. */
  lemma CorrectedLookupContains(s: string)
    requires ParseCanonical(s).Some?
    ensures var dt := ParseCanonical(s).value; var r := GetCycleForFixed(s);
      && (r.Some? <==> FirstStartDay <= DayNumber(dt) < FirstStartDay + CycleDays * |CorrectedAiracDates|)
      && (r.Some? ==> r.value in CorrectedAiracDates && CycleHolds(r.value, dt))
  {
    var dt := ParseCanonical(s).value;
    var x := DayNumber(dt) - FirstStartDay;
    CorrectedStartDays();
    if 0 <= x < CycleDays * |CorrectedAiracDates| {
      var i := x / CycleDays;
      assert DayNumber(CorrectedAiracDates[i].start) == FirstStartDay + CycleDays * i;
    }
  }

  /** The `u16` code of a cycle: two-digit year, then two-digit ordinal. */
  function CodeNumber(c: Cycle): int
  {
    c.year % 100 * 100 + c.ordinal
  }

  /** The computed first cycles of 2024 through 2027 are the starts of
      2401, 2501, 2601 and of the cycle after 2613; each of 2024, 2025 and
      2026 has 13 cycles. */
  lemma FirstCycles2024To2027()
    ensures DayNumber(FirstCycleOfYear(2024)) == FirstStartDay
    ensures DayNumber(FirstCycleOfYear(2025)) == FirstStartDay + 13 * CycleDays
    ensures DayNumber(FirstCycleOfYear(2026)) == FirstStartDay + 26 * CycleDays
    ensures DayNumber(FirstCycleOfYear(2027)) == FirstStartDay + 39 * CycleDays
    ensures CyclesInYear(2024) == 13 && CyclesInYear(2025) == 13 && CyclesInYear(2026) == 13
  {
    NewYears2024To2026();
    YearStep(2026);
    assert DaysToNextCycle(NewYear(2024)) == 24;
    assert DaysToNextCycle(NewYear(2025)) == 22;
    assert DaysToNextCycle(NewYear(2026)) == 21;
    assert DaysToNextCycle(NewYear(2027)) == 20;
  }

  /** Within the corrected table's span the intended lookup and the
      intended computation agree: the entry answering for a date carries
      the code of the cycle the arithmetic numbers it in. */
  lemma TableAgreesWithCalculation(s: string)
    requires ParseCanonical(s).Some?
    requires var x := DayNumber(ParseCanonical(s).value) - FirstStartDay;
      0 <= x < CycleDays * |CorrectedAiracDates|
    ensures GetCycleForFixed(s).Some?
    ensures GetCycleForFixed(s).value.code == CodeNumber(FixedCycleOfDate(ParseCanonical(s).value))
  {
    var dt := ParseCanonical(s).value;
    var x := DayNumber(dt) - FirstStartDay;
    var i := x / CycleDays;
    TableLength();
    assert GetCycleForFixed(s) == CorrectedEntry(x);
    assert CorrectedEntry(x) == Some(CorrectedAiracDates[i]);
    assert CorrectedAiracDates[i].code == AiracDates[i].code by {
      CorrectedStartDays();
    }
    EntryCycle(dt, i);
  }

  /** A date in the 28 days from the corrected start of entry `i` is numbered
      with entry `i`'s code. */
  lemma EntryCycle(dt: Date, i: int)
    requires Valid(dt) && 0 <= i < |AiracDates|
    requires FirstStartDay + CycleDays * i <= DayNumber(dt) < FirstStartDay + CycleDays * i + CycleDays
    ensures CodeNumber(FixedCycleOfDate(dt)) == AiracDates[i].code
  {
    var c := FixedCycleOfDate(dt);
    TableLength();
    FirstCycles2024To2027();
    if i < 13 {
      assert c == Cycle(2024, i + 1) by { FixedCycleOfSlot(2024, i + 1, dt); }
    } else if i < 26 {
      assert c == Cycle(2025, i - 12) by { FixedCycleOfSlot(2025, i - 12, dt); }
    } else {
      assert c == Cycle(2026, i - 25) by { FixedCycleOfSlot(2026, i - 25, dt); }
    }
    assert c.year % 100 == c.year - 2000;
    Codes();
  }
}

=== FILE: airac_table_examples.dfy ===
/** Dates the lookup by table answers, as written and as intended. */
module AiracTableExamples {

  import opened Wrappers
  import opened CivilDate
  import opened AiracTable

  /** 2024-02-22, the start of 2402, is the second item of the first pair:
      as written it answers 2401; as intended, 2402. */
  lemma SecondStartAnswersFirst()
    ensures TableValid() && PairScan(AiracDates, 0, Date(2024, 2, 22)) == Some(AiracDates[0])
    ensures AiracDates[0].code == 2401
    ensures CorrectedLookup(Date(2024, 2, 22)) == Some(CorrectedAiracDates[1])
    ensures CorrectedAiracDates[1].code == 2402
  {
    var d := Date(2024, 2, 22);
    assert DayNumber(d) - FirstStartDay == 28 by {
      NewYears2024To2026();
    }
    var k := (DayNumber(d) - FirstStartDay) / 56;
    assert k == 0;
    PairLookupHit(d);
    assert PairScan(AiracDates, 0, d) == Some(AiracDates[2 * k]);
    assert AiracDates[0].code == 2401 && CorrectedAiracDates[1].code == 2402 by {
      Codes();
      CorrectedStartDays();
    }
    TableLength();
  }

  /** 2024-03-01 lies between the first pair and the second: as written it
      answers nothing; as intended, 2402. */
  lemma GapAnswersNothing()
    ensures TableValid() && PairScan(AiracDates, 0, Date(2024, 3, 1)) == None
    ensures CorrectedLookup(Date(2024, 3, 1)) == Some(CorrectedAiracDates[1])
  {
    NewYears2024To2026();
    assert DayNumber(Date(2024, 3, 1)) - FirstStartDay == 36;
    PairLookupMiss(Date(2024, 3, 1));
    TableLength();
  }

  /** 2026-12-24, the start of 2613: as written nothing; as intended 2613. */
  lemma LastStartAnswersNothing()
    ensures TableValid() && PairScan(AiracDates, 0, Date(2026, 12, 24)) == None
    ensures CorrectedLookup(Date(2026, 12, 24)) == Some(CorrectedAiracDates[38])
    ensures CorrectedAiracDates[38].code == 2613
  {
    NewYears2024To2026();
    assert DayNumber(Date(2026, 12, 24)) - FirstStartDay == 38 * 28;
    PairLookupMiss(Date(2026, 12, 24));
    TableLength();
  }
}

=== FILE: chart_document.dfy ===
/** The shape of the d-TPP metafile after XML decoding: states hold cities,
    cities hold airports, airports hold chart records. Only the fields the
    ingestion reads are kept; the decoding itself is not modelled. */
module ChartDocument {

  import opened Wrappers

  /** One chart record of an airport. */
  datatype Chart = Chart(chartCode: string, chartName: string, pdfName: string)

  /** An airport; the decoder leaves `aptIdent` and `records` absent when
      the element is missing. */
  datatype Airport = Airport(id: string, aptIdent: Option<string>, records: Option<seq<Chart>>)

  datatype City = City(id: string, airports: seq<Airport>)

  datatype State = State(id: string, cityNames: seq<City>)

  /** The whole metafile. */
  datatype DigitalTpp = DigitalTpp(stateCodes: seq<State>)
}

=== FILE: chart_store.dfy ===
/** One chart table as the run sees it: rows keyed by their `id` (the
    primary key), the `INSERT ... ON DUPLICATE KEY UPDATE` of
    `update_chart`, and the `DELETE ... WHERE cycle != ?` sweep. */
module ChartStore {

  import opened Ingest

  /** A table: primary key to row. */
  type Store = map<string, Row>

  /** `update_chart` for row `r`: an absent id is inserted with all eight
      columns; a present one has every column but `airport_id` overwritten. */
  function Upsert(st: Store, r: Row): (st': Store)
    ensures st'.Keys == st.Keys + {r.id}
    ensures st'[r.id].(airportId := r.airportId) == r
    ensures st'[r.id].airportId == if r.id in st then st[r.id].airportId else r.airportId
    ensures forall id :: id in st && id != r.id ==> st'[id] == st[id]
  {
    if r.id in st then st[r.id := r.(airportId := st[r.id].airportId)] else st[r.id := r]
  }

  /** Upserting the same row twice is upserting it once. */
  lemma UpsertIdempotent(st: Store, r: Row)
    ensures Upsert(Upsert(st, r), r) == Upsert(st, r)
  {
  }

  /** The upserts of `rows`, in order. */
  function UpsertAll(st: Store, rows: seq<Row>): Store
  {
    if |rows| == 0 then st else Upsert(UpsertAll(st, rows[..|rows| - 1]), rows[|rows| - 1])
  }

  /** Some row of `rows` has this id. */
  predicate HasId(rows: seq<Row>, id: string)
  {
    exists i :: 0 <= i < |rows| && rows[i].id == id
  }

  /** The last row of `rows` with this id. */
  function LastWith(rows: seq<Row>, id: string): (r: Row)
    requires HasId(rows, id)
    ensures r in rows && r.id == id
  {
    var last := rows[|rows| - 1];
    if last.id == id then last
    else
      assert HasId(rows[..|rows| - 1], id) by {
        var i :| 0 <= i < |rows| && rows[i].id == id;
        assert rows[..|rows| - 1][i].id == id;
      }
      LastWith(rows[..|rows| - 1], id)
  }

  /** The first row of `rows` with this id. */
  function FirstWith(rows: seq<Row>, id: string): (r: Row)
    requires HasId(rows, id)
    ensures r in rows && r.id == id
  {
    var init, last := rows[..|rows| - 1], rows[|rows| - 1];
    if HasId(init, id) then FirstWith(init, id) else last
  }

  /** The store after the upserts, key by key: an id some row carries holds
      the last such row, with the `airport_id` the store had for it, or else
      the first such row's; every other key is as before. */
  lemma {:induction false} UpsertAllAt(st: Store, rows: seq<Row>, id: string)
    ensures var u := UpsertAll(st, rows);
      && (HasId(rows, id) ==>
            id in u && u[id] == LastWith(rows, id).(airportId :=
              if id in st then st[id].airportId else FirstWith(rows, id).airportId))
      && (!HasId(rows, id) ==> (id in u <==> id in st) && (id in st ==> u[id] == st[id]))
  {
    if |rows| > 0 {
      var init, last := rows[..|rows| - 1], rows[|rows| - 1];
      UpsertAllAt(st, init, id);
      assert HasId(init, id) ==> HasId(rows, id) by {
        if HasId(init, id) {
          var i :| 0 <= i < |init| && init[i].id == id;
          assert rows[i].id == id;
        }
      }
      assert HasId(rows, id) && last.id != id ==> HasId(init, id) by {
        if HasId(rows, id) && last.id != id {
          var i :| 0 <= i < |rows| && rows[i].id == id;
          assert init[i].id == id;
        }
      }
      if last.id == id {
        assert HasId(rows, id) by { assert rows[|rows| - 1].id == id; }
      }
    }
  }

  /** Repeating the same upserts leaves the store as one pass left it,
      `airport_id` under repeated ids included. */
  lemma UpsertAllIdempotent(st: Store, rows: seq<Row>)
    ensures UpsertAll(UpsertAll(st, rows), rows) == UpsertAll(st, rows)
  {
    var u1 := UpsertAll(st, rows);
    var u2 := UpsertAll(u1, rows);
    forall id | id in u1 || id in u2
      ensures id in u1 && id in u2 && u2[id] == u1[id]
    {
      UpsertAllAt(st, rows, id);
      UpsertAllAt(u1, rows, id);
    }
    assert u1.Keys == u2.Keys;
  }

  /** `DELETE ... WHERE cycle != ?`: the rows of the current cycle stay,
      untouched; every other row goes. */
  function Sweep(st: Store, cycle: string): (st': Store)
    ensures forall id :: id in st' ==> id in st && st'[id] == st[id] && st'[id].cycle == cycle
    ensures forall id :: id in st && st[id].cycle == cycle ==> id in st'
  {
    map id | id in st && st[id].cycle == cycle :: st[id]
  }

  lemma SweepIdempotent(st: Store, cycle: string)
    ensures Sweep(Sweep(st, cycle), cycle) == Sweep(st, cycle)
  {
  }

  /** Every row of `rows` is of `cycle`. */
  predicate AllOfCycle(rows: seq<Row>, cycle: string)
  {
    forall i :: 0 <= i < |rows| ==> rows[i].cycle == cycle
  }

  /** After upserting rows of the current cycle and sweeping: every upserted
      id is present with its last row's columns, every survivor is of the
      current cycle, and a survivor no row carried is the untouched old row. */
  lemma UpsertThenSweep(st: Store, rows: seq<Row>, cycle: string)
    requires AllOfCycle(rows, cycle)
    ensures var s := Sweep(UpsertAll(st, rows), cycle);
      forall i :: 0 <= i < |rows| ==>
        && rows[i].id in s
        && s[rows[i].id].(airportId := rows[i].airportId) == LastWith(rows, rows[i].id).(airportId := rows[i].airportId)
    ensures var s := Sweep(UpsertAll(st, rows), cycle);
      forall id :: id in s ==> s[id].cycle == cycle
    ensures var s := Sweep(UpsertAll(st, rows), cycle);
      forall id :: id in s && !HasId(rows, id) ==> id in st && s[id] == st[id]
  {
    var u := UpsertAll(st, rows);
    forall i | 0 <= i < |rows|
      ensures rows[i].id in u && u[rows[i].id].cycle == cycle
      ensures u[rows[i].id].(airportId := rows[i].airportId) == LastWith(rows, rows[i].id).(airportId := rows[i].airportId)
    {
      assert HasId(rows, rows[i].id);
      UpsertAllAt(st, rows, rows[i].id);
      var j :| 0 <= j < |rows| && rows[j] == LastWith(rows, rows[i].id);
    }
    forall id | id in u && !HasId(rows, id)
      ensures id in st && u[id] == st[id]
    {
      UpsertAllAt(st, rows, id);
    }
  }

  /** A second identical run (upserts of the current cycle, then the sweep)
      leaves the table as the first one left it. */
  lemma UpsertThenSweepIdempotent(st: Store, rows: seq<Row>, cycle: string)
    requires AllOfCycle(rows, cycle)
    ensures var once := Sweep(UpsertAll(st, rows), cycle);
      Sweep(UpsertAll(once, rows), cycle) == once
  {
    var once := Sweep(UpsertAll(st, rows), cycle);
    var twice := Sweep(UpsertAll(once, rows), cycle);
    forall id | id in once || id in twice
      ensures id in once && id in twice && twice[id] == once[id]
    {
      RerunAt(st, rows, cycle, id);
    }
    assert once.Keys == twice.Keys;
  }

  /** `UpsertThenSweepIdempotent` for one key. */
  lemma RerunAt(st: Store, rows: seq<Row>, cycle: string, id: string)
    requires AllOfCycle(rows, cycle)
    ensures var once := Sweep(UpsertAll(st, rows), cycle);
      var twice := Sweep(UpsertAll(once, rows), cycle);
      (id in once <==> id in twice) && (id in once ==> twice[id] == once[id])
  {
    var once := Sweep(UpsertAll(st, rows), cycle);
    UpsertAllAt(st, rows, id);
    UpsertAllAt(once, rows, id);
    if HasId(rows, id) {
      var j :| 0 <= j < |rows| && rows[j] == LastWith(rows, id);
    }
  }
}

=== FILE: civil_date.dfy ===
/** Proleptic-Gregorian calendar dates (the value chrono's `NaiveDate` holds)
    and their day numbers. Every date operation of the cycle code reduces to
    arithmetic on `DayNumber`. */
module CivilDate {

  import opened Wrappers

  datatype Date = Date(year: int, month: int, day: int)

  predicate IsLeapYear(y: int)
  {
    y % 4 == 0 && (y % 100 != 0 || y % 400 == 0)
  }

  function DaysInMonth(y: int, m: int): (n: int)
    requires 1 <= m <= 12
    ensures 28 <= n <= 31
  {
    if m == 2 then (if IsLeapYear(y) then 29 else 28)
    else if m == 4 || m == 6 || m == 9 || m == 11 then 30
    else 31
  }

  function DaysInYear(y: int): int
  {
    if IsLeapYear(y) then 366 else 365
  }

  /** A date that exists in the calendar. */
  predicate Valid(d: Date)
  {
    1 <= d.month <= 12 && 1 <= d.day <= DaysInMonth(d.year, d.month)
  }

  /** Days from 0001-01-01 to January 1 of year `y` (negative before),
      one year at a time from the 730119 days before 2000;
      `DaysBeforeYearFormula` gives the closed form and so checks that
      constant. */
  function DaysBeforeYear(y: int): int
    decreases if y >= 2000 then y - 2000 else 2000 - y
  {
    if y == 2000 then 730119
    else if y > 2000 then DaysBeforeYear(y - 1) + DaysInYear(y - 1)
    else DaysBeforeYear(y + 1) - DaysInYear(y)
  }

  /** Days from January 1 to the first day of month `m` of year `y`. */
  function DaysBeforeMonth(y: int, m: int): int
    requires 1 <= m <= 12
  {
    var common :=
      if m == 1 then 0 else if m == 2 then 31 else if m == 3 then 59
      else if m == 4 then 90 else if m == 5 then 120 else if m == 6 then 151
      else if m == 7 then 181 else if m == 8 then 212 else if m == 9 then 243
      else if m == 10 then 273 else if m == 11 then 304 else 334;
    common + (if m > 2 && IsLeapYear(y) then 1 else 0)
  }

  /** Days since 0001-01-01: `DayNumber(b) - DayNumber(a)` is chrono's
      `b.signed_duration_since(a).num_days()`. */
  function DayNumber(d: Date): int
    requires Valid(d)
  {
    DaysBeforeYear(d.year) + DaysBeforeMonth(d.year, d.month) + d.day - 1
  }

  /** January 1 of year `y`. */
  function NewYear(y: int): (d: Date)
    ensures Valid(d) && DayNumber(d) == DaysBeforeYear(y)
  {
    Date(y, 1, 1)
  }

  lemma YearStep(y: int)
    ensures DaysBeforeYear(y + 1) == DaysBeforeYear(y) + DaysInYear(y)
  {
  }

  /** The leap-day count `p / 4 - p / 100 + p / 400` grows by one exactly
      when year `p` is a leap year. */
  lemma LeapCountStep(p: int)
    ensures p / 4 - p / 100 + p / 400
         == (p - 1) / 4 - (p - 1) / 100 + (p - 1) / 400 + (if IsLeapYear(p) then 1 else 0)
  {
    DivStep4(p);
    DivStep100(p);
    DivStep400(p);
  }

  lemma DivStep4(p: int)
    ensures p / 4 == (p - 1) / 4 + (if p % 4 == 0 then 1 else 0)
  {
  }

  lemma DivStep100(p: int)
    ensures p / 100 == (p - 1) / 100 + (if p % 100 == 0 then 1 else 0)
  {
  }

  lemma DivStep400(p: int)
    ensures p / 400 == (p - 1) / 400 + (if p % 400 == 0 then 1 else 0)
  {
  }

  /** The Gregorian closed form: 365 days a year plus one for each leap
      year (every fourth, except centuries not divisible by 400); Dafny's
      `/` floors for a positive divisor, so it holds before year 1 too. */
  lemma {:induction false} DaysBeforeYearFormula(y: int)
    ensures var p := y - 1; DaysBeforeYear(y) == 365 * p + p / 4 - p / 100 + p / 400
    decreases if y >= 2000 then y - 2000 else 2000 - y
  {
    if y > 2000 {
      DaysBeforeYearFormula(y - 1);
      LeapCountStep(y - 1);
    } else if y < 2000 {
      DaysBeforeYearFormula(y + 1);
      LeapCountStep(y);
    }
  }

  lemma {:induction false} DaysBeforeYearMonotone(y1: int, y2: int)
    requires y1 <= y2
    ensures DaysBeforeYear(y1) + 365 * (y2 - y1) <= DaysBeforeYear(y2)
    decreases y2 - y1
  {
    if y1 < y2 {
      YearStep(y1);
      DaysBeforeYearMonotone(y1 + 1, y2);
    }
  }

  lemma MonthStep(y: int, m: int)
    requires 1 <= m < 12
    ensures DaysBeforeMonth(y, m + 1) == DaysBeforeMonth(y, m) + DaysInMonth(y, m)
  {
  }

  /** The day numbers of a year's dates lie between its New Year and the next one. */
  lemma WithinYear(d: Date)
    requires Valid(d)
    ensures DaysBeforeYear(d.year) <= DayNumber(d) < DaysBeforeYear(d.year + 1)
  {
    YearStep(d.year);
  }

  /** Calendar (lexicographic) order of dates. */
  function CompareDates(a: Date, b: Date): (o: Ordering)
  {
    if a.year != b.year then CompareInt(a.year, b.year)
    else if a.month != b.month then CompareInt(a.month, b.month)
    else CompareInt(a.day, b.day)
  }

  /** Calendar order and day-number order agree. */
  lemma CompareDatesByDayNumber(a: Date, b: Date)
    requires Valid(a) && Valid(b)
    ensures CompareDates(a, b) == CompareInt(DayNumber(a), DayNumber(b))
  {
    if a.year < b.year {
      WithinYear(a);
      WithinYear(b);
      DaysBeforeYearMonotone(a.year + 1, b.year);
    } else if a.year > b.year {
      WithinYear(a);
      WithinYear(b);
      DaysBeforeYearMonotone(b.year + 1, a.year);
    }
  }

  /** A valid date is determined by its day number. */
  lemma DayNumberInjective(a: Date, b: Date)
    requires Valid(a) && Valid(b) && DayNumber(a) == DayNumber(b)
    ensures a == b
  {
    CompareDatesByDayNumber(a, b);
  }

  /** Bounds on the day number bound the year. */
  lemma YearFromDayNumber(d: Date, lo: int, hi: int)
    requires Valid(d)
    requires DaysBeforeYear(lo) <= DayNumber(d) < DaysBeforeYear(hi)
    ensures lo <= d.year < hi
  {
    WithinYear(d);
    if d.year < lo {
      DaysBeforeYearMonotone(d.year + 1, lo);
    }
    if d.year >= hi {
      DaysBeforeYearMonotone(hi, d.year);
    }
  }

  /** The calendar day after `d` (chrono's `succ_opt` / `+ Duration::days(1)`). */
  function NextDay(d: Date): (r: Date)
    requires Valid(d)
    ensures Valid(r) && DayNumber(r) == DayNumber(d) + 1
  {
    if d.day < DaysInMonth(d.year, d.month) then
      Date(d.year, d.month, d.day + 1)
    else if d.month < 12 then
      MonthStep(d.year, d.month);
      Date(d.year, d.month + 1, 1)
    else
      YearStep(d.year);
      Date(d.year + 1, 1, 1)
  }

  /** The calendar day before `d`. */
  function PrevDay(d: Date): (r: Date)
    requires Valid(d)
    ensures Valid(r) && DayNumber(r) == DayNumber(d) - 1
  {
    if d.day > 1 then
      Date(d.year, d.month, d.day - 1)
    else if d.month > 1 then
      MonthStep(d.year, d.month - 1);
      Date(d.year, d.month - 1, DaysInMonth(d.year, d.month - 1))
    else
      YearStep(d.year - 1);
      Date(d.year - 1, 12, 31)
  }

  /** `d + Duration::days(k)`, stepping one calendar day at a time. */
  function AddDays(d: Date, k: int): (r: Date)
    requires Valid(d)
    ensures Valid(r) && DayNumber(r) == DayNumber(d) + k
    decreases if k >= 0 then k else -k
  {
    if k == 0 then d
    else if k > 0 then AddDays(NextDay(d), k - 1)
    else AddDays(PrevDay(d), k + 1)
  }
}

=== FILE: cycle_clock.dfy ===
/** Computed AIRAC cycle arithmetic: a 28-day lattice of cycle-start dates
    anchored at 2023-01-26, the first cycle of each year, and the conversions
    between dates and four-digit cycle codes `YYNN`. */
module CycleClock {

  import opened Wrappers
  import opened CivilDate
  import opened DateText

  /** The known cycle-start date all cycles are measured from. */
  const Epoch: Date := Date(2023, 1, 26)

  const CycleDays: int := 28

  /** `DayNumber(Epoch)`, fixed once so that proofs about arbitrary dates do
      not evaluate the calendar up to 2023; `EpochDayNumber` checks it. */
  const EpochDay: int := 738545

  lemma EpochDayNumber()
    ensures DayNumber(Epoch) == EpochDay
  {
    DaysBeforeYearFormula(2023);
  }

  /** Rust's `a / 28` on `i64`: the quotient rounded toward zero. */
  function RustDiv28(a: int): (q: int)
    ensures a >= 0 ==> 0 <= a - 28 * q < 28
    ensures a < 0 ==> -28 < a - 28 * q <= 0
  {
    if a >= 0 then a / 28 else -((-a) / 28)
  }

  /** Rust's `a % 28` on `i64`: the remainder takes the sign of the dividend. */
  function RustRem28(a: int): (r: int)
    ensures r == 0 <==> a % 28 == 0
    ensures -28 < r < 28
  {
    a - 28 * RustDiv28(a)
  }

  /** Days from the epoch to `d`, negative before it (`EpochDayNumber`
      shows the constant is the epoch's day number). */
  function DaysSinceEpoch(d: Date): int
    requires Valid(d)
  {
    DayNumber(d) - EpochDay
  }

  /** `is_cycle_date`: the day difference to the epoch leaves no remainder
      modulo 28. Holds exactly for the lattice of multiples of 28 days,
      before the epoch as well as after it. */
  function IsCycleDate(d: Date): (b: bool)
    requires Valid(d)
    ensures b <==> DaysSinceEpoch(d) % CycleDays == 0
  {
    RustRem28(DaysSinceEpoch(d)) == 0
  }

  /** Shifting a multiple of 28 by `k` stays a multiple exactly when `k` is one. */
  lemma LatticeShift(x: int, k: int)
    requires x % CycleDays == 0
    ensures (x + k) % CycleDays == 0 <==> k % CycleDays == 0
  {
  }

  lemma WholeCycles(n: int)
    ensures (n * CycleDays) % CycleDays == 0
  {
  }

  /** Two multiples of 28 less than 28 apart are equal. */
  lemma LatticeUnique(a: int, b: int)
    requires a % CycleDays == 0 && b % CycleDays == 0 && -CycleDays < a - b < CycleDays
    ensures a == b
  {
  }

  /** Moving by whole cycles keeps a date on the lattice; any other shift
      takes it off. */
  lemma CycleDateShift(d: Date, k: int)
    requires Valid(d) && IsCycleDate(d)
    ensures IsCycleDate(AddDays(d, k)) <==> k % CycleDays == 0
  {
    LatticeShift(DaysSinceEpoch(d), k);
  }

  /** Days from `d` forward to the next cycle-start date, 0 when `d` is one. */
  function DaysToNextCycle(d: Date): (k: int)
    requires Valid(d)
    ensures 0 <= k < CycleDays
  {
    (EpochDay - DayNumber(d)) % CycleDays
  }

  /** One step closer: the residue of a non-multiple drops by one. */
  lemma StepResidue(x: int)
    requires x % CycleDays != 0
    ensures (x - 1) % CycleDays == x % CycleDays - 1
  {
  }

  lemma ResidueCancel(x: int)
    ensures (x % CycleDays - x) % CycleDays == 0
  {
  }

  lemma NegResidue(x: int)
    ensures (-x) % CycleDays == 0 <==> x % CycleDays == 0
  {
  }

  /** Between `a` and the next multiple-of-28 distance from `p` there is none. */
  lemma BeforeResidue(a: int, e: int, p: int)
    requires a <= e < a + (p - a) % CycleDays
    ensures (e - p) % CycleDays != 0
  {
  }

  /** The day-by-day scan of `first_cycle_of_year`: step forward from `d`
      until `is_cycle_date` holds. It ends at the closed form
      `d + DaysToNextCycle(d)`, after at most 27 steps. */
  function ScanForCycleDate(d: Date): (r: Date)
    requires Valid(d)
    ensures Valid(r) && IsCycleDate(r)
    ensures DayNumber(r) == DayNumber(d) + DaysToNextCycle(d)
    decreases DaysToNextCycle(d)
  {
    var x := EpochDay - DayNumber(d);
    NegResidue(x);
    if IsCycleDate(d) then d
    else
      var n := NextDay(d);
      StepResidue(x);
      assert EpochDay - DayNumber(n) == x - 1;
      ScanForCycleDate(n)
  }

  /** The scan passes no cycle date before the one it stops at. */
  lemma ScanStopsAtFirst(d: Date, e: Date)
    requires Valid(d) && Valid(e)
    requires DayNumber(d) <= DayNumber(e) < DayNumber(d) + DaysToNextCycle(d)
    ensures !IsCycleDate(e)
  {
    BeforeResidue(DayNumber(d), DayNumber(e), EpochDay);
  }

  /** `first_cycle_of_year`: the first cycle-start date on or after
      January 1 of `y`; at most 27 days in, so still in January. Written in
      closed form; `FirstCycleOfYearIsScan` shows it is where the source's
      day-by-day loop stops. */
  function FirstCycleOfYear(y: int): (r: Date)
    ensures Valid(r) && IsCycleDate(r)
    ensures r.year == y && r.month == 1 && 1 <= r.day <= 28
    ensures DaysBeforeYear(y) <= DayNumber(r) < DaysBeforeYear(y) + CycleDays
    ensures DayNumber(r) == DaysBeforeYear(y) + DaysToNextCycle(NewYear(y))
  {
    var x := EpochDay - DaysBeforeYear(y);
    var k := DaysToNextCycle(NewYear(y));
    assert k == x % CycleDays;
    ResidueCancel(x);
    Date(y, 1, 1 + k)
  }

  lemma FirstCycleOfYearIsScan(y: int)
    ensures FirstCycleOfYear(y) == ScanForCycleDate(NewYear(y))
  {
    DayNumberInjective(FirstCycleOfYear(y), ScanForCycleDate(NewYear(y)));
  }

  /** No day of `y` before its first cycle is a cycle-start date. */
  lemma FirstCycleIsFirst(y: int, e: Date)
    requires Valid(e) && DaysBeforeYear(y) <= DayNumber(e) < DayNumber(FirstCycleOfYear(y))
    ensures !IsCycleDate(e)
  {
    ScanStopsAtFirst(NewYear(y), e);
  }

  /** A cycle-start date of year `y` is on or after its first cycle. */
  lemma CycleDateFromFirst(d: Date)
    requires Valid(d) && IsCycleDate(d)
    ensures DayNumber(FirstCycleOfYear(d.year)) <= DayNumber(d)
  {
    WithinYear(d);
    if DayNumber(d) < DayNumber(FirstCycleOfYear(d.year)) {
      FirstCycleIsFirst(d.year, d);
    }
  }

  /** Any cycle-start date in the first 28 days of January is that year's first. */
  lemma FirstCycleOfYearUnique(y: int, c: Date)
    requires Valid(c) && c.year == y && c.month == 1 && c.day <= 28 && IsCycleDate(c)
    ensures FirstCycleOfYear(y) == c
  {
    var f := FirstCycleOfYear(y);
    LatticeUnique(DaysSinceEpoch(f), DaysSinceEpoch(c));
    DayNumberInjective(f, c);
  }

  /** `cycles_between_dates`: `diff / 28 + 1` with Rust's truncating division.
      From `d1` forward it is the 1-based index of the 28-day slot holding
      `d2`. Backwards, truncation gives the 27 days before `d1` ordinal 1,
      the same as the slot starting at `d1`, and each earlier 28-day slot
      one less. */
  function CyclesBetweenDates(d1: Date, d2: Date): (n: int)
    requires Valid(d1) && Valid(d2)
    ensures DayNumber(d1) <= DayNumber(d2) ==>
      1 <= n && DayNumber(d1) + (n - 1) * CycleDays <= DayNumber(d2) < DayNumber(d1) + n * CycleDays
    ensures DayNumber(d2) < DayNumber(d1) ==>
      n <= 1 && DayNumber(d1) - (2 - n) * CycleDays < DayNumber(d2) <= DayNumber(d1) - (1 - n) * CycleDays
  {
    RustDiv28(DayNumber(d2) - DayNumber(d1)) + 1
  }

  /** Only one slot index brackets a gap. */
  lemma SlotUnique(a: int, b: int, g: int)
    requires (a - 1) * CycleDays <= g < a * CycleDays
    requires (b - 1) * CycleDays <= g < b * CycleDays
    ensures a == b
  {
  }

  /** The gap between two lattice points 338..393 days apart is 13 or 14 cycles. */
  lemma LatticeGap(a: int, b: int)
    requires a % CycleDays == 0 && b % CycleDays == 0 && 338 <= b - a <= 393
    ensures b - a == 13 * CycleDays || b - a == 14 * CycleDays
  {
  }

  /** Two consecutive years' first cycles are 13 or 14 cycles apart. */
  lemma FirstCyclesApart(y: int)
    ensures var gap := DayNumber(FirstCycleOfYear(y + 1)) - DayNumber(FirstCycleOfYear(y));
      gap == 13 * CycleDays || gap == 14 * CycleDays
  {
    var f, g := FirstCycleOfYear(y), FirstCycleOfYear(y + 1);
    WithinYear(f);
    WithinYear(g);
    YearStep(y);
    LatticeGap(DaysSinceEpoch(f), DaysSinceEpoch(g));
  }

  /** `number_of_cycles_in_year`, as written: the slot index of next year's
      first cycle counted from this year's, which is one more than the
      number of cycles that start in `y` (so 14 or 15, never 13). */
  function NumberOfCyclesInYear(y: int): (n: int)
    ensures n == 14 || n == 15
    ensures DayNumber(FirstCycleOfYear(y + 1)) == DayNumber(FirstCycleOfYear(y)) + (n - 1) * CycleDays
    ensures DayNumber(FirstCycleOfYear(y)) + (n - 2) * CycleDays < DaysBeforeYear(y + 1)
  {
    FirstCyclesApart(y);
    WithinYear(FirstCycleOfYear(y + 1));
    CyclesBetweenDates(FirstCycleOfYear(y), FirstCycleOfYear(y + 1))
  }

  /** The evidently intended count: the ordinal of the last cycle that
      starts in `y`. Cycles 1..n start in `y` and cycle n + 1 is next year's
      first. */
  function CyclesInYear(y: int): (n: int)
    ensures n == 13 || n == 14
    ensures DayNumber(FirstCycleOfYear(y + 1)) == DayNumber(FirstCycleOfYear(y)) + n * CycleDays
    ensures DayNumber(FirstCycleOfYear(y)) + (n - 1) * CycleDays < DaysBeforeYear(y + 1)
  {
    FirstCyclesApart(y);
    WithinYear(FirstCycleOfYear(y + 1));
    (DayNumber(FirstCycleOfYear(y + 1)) - DayNumber(FirstCycleOfYear(y))) / CycleDays
  }

  /** The code's count exceeds the intended one by exactly one, every year. */
  lemma NumberOfCyclesOffByOne(y: int)
    ensures NumberOfCyclesInYear(y) == CyclesInYear(y) + 1
  {
  }

  /** `split_year`: the year's decimal text with its first two characters
      dropped, read back as a number; for a four-digit year, its last two
      digits. */
  function SplitYear(y: int): (r: int)
    requires 1000 <= y <= 9999
    ensures r == y % 100
  {
    PadSplit4(y);
    DigitsValueOfPad(y % 100, 2);
    assert Pad(y, 4)[2..] == Pad(y % 100, 2);
    DigitsValue(Pad(y, 4)[2..])
  }

  /** `format!("{:02}{:02}", yy, nn)`. */
  function CodeText(yy: int, nn: int): (s: string)
    requires 0 <= yy < 100 && 0 <= nn < 100
    ensures |s| == 4 && AllDigits(s)
  {
    Pad(yy, 2) + Pad(nn, 2)
  }

  /** The two fields of a code read back as written. */
  lemma CodeTextFields(yy: int, nn: int)
    requires 0 <= yy < 100 && 0 <= nn < 100
    ensures DigitsValue(CodeText(yy, nn)[0..2]) == yy
    ensures DigitsValue(CodeText(yy, nn)[2..4]) == nn
  {
    var s := CodeText(yy, nn);
    assert s[0..2] == Pad(yy, 2) && s[2..4] == Pad(nn, 2);
    DigitsValueOfPad(yy, 2);
    DigitsValueOfPad(nn, 2);
  }

  /** The text `calculate_cycle` accepts without panicking, as modelled:
      either its year prefix is not an integer, or it is the canonical text
      of a date whose year and previous year both have four digits. */
  predicate CycleInput(s: string)
  {
    YearPrefix(s).None? || (ParseCanonical(s).Some? && ParseCanonical(s).value.year >= 1001)
  }

  /** The two numbers `calculate_cycle` formats into its code, as written:
      the text is compared with the first cycle of its year as a string;
      before it, the previous year's `number_of_cycles_in_year` is the
      ordinal. */
  function CycleFields(s: string): (r: Option<(int, int)>)
    requires CycleInput(s)
    ensures r.None? <==> YearPrefix(s).None?
    ensures r.Some? ==> 0 <= r.value.0 < 100 && 0 <= r.value.1 < 100
  {
    match YearPrefix(s)
    case None => None
    case Some(y) =>
      CompareWithFirst(s);
      var d := ParseCanonical(s).value;
      Some(CodeFields(d, CompareText(s, Format(FirstCycleOfYear(y))), NumberOfCyclesInYear(y - 1)))
  }

  /** The year and ordinal `calculate_cycle` puts into the code of date `d`,
      given how its text compares with the text of its year's first cycle
      (`o`) and the ordinal it uses before that cycle (`before`). */
  function CodeFields(d: Date, o: Ordering, before: int): (r: (int, int))
    requires Valid(d) && 1001 <= d.year <= 9999 && 0 <= before < 100
    requires o == CompareInt(DayNumber(d), DayNumber(FirstCycleOfYear(d.year)))
    ensures 0 <= r.0 < 100 && 0 <= r.1 < 100
  {
    match o
    case Less => (SplitYear(d.year - 1), before)
    case Equal => (SplitYear(d.year), 1)
    case Greater =>
      WithinYear(d);
      (SplitYear(d.year), CyclesBetweenDates(FirstCycleOfYear(d.year), d))
  }

  /** `calculate_cycle`: `None` when the year prefix does not parse,
      otherwise the four-digit code `format!("{:02}{:02}", yy, nn)`. */
  function CalculateCycle(s: string): (r: Option<string>)
    requires CycleInput(s)
    ensures r.None? <==> YearPrefix(s).None?
    ensures r.Some? ==> |r.value| == 4 && AllDigits(r.value)
  {
    match CycleFields(s)
    case None => None
    case Some((yy, nn)) => Some(CodeText(yy, nn))
  }

  /** `CycleFields` with the evidently intended previous-year ordinal
      `CyclesInYear`; on and after the year's first cycle it is the code as
      written. */
  function FixedCycleFields(s: string): (r: Option<(int, int)>)
    requires CycleInput(s)
    ensures r.None? <==> YearPrefix(s).None?
    ensures r.Some? ==> 0 <= r.value.0 < 100 && 0 <= r.value.1 < 100
  {
    match YearPrefix(s)
    case None => None
    case Some(y) =>
      CompareWithFirst(s);
      var d := ParseCanonical(s).value;
      Some(CodeFields(d, CompareText(s, Format(FirstCycleOfYear(y))), CyclesInYear(y - 1)))
  }

  /** `calculate_cycle` with the intended count. */
  function CalculateCycleFixed(s: string): (r: Option<string>)
    requires CycleInput(s)
    ensures r.None? <==> YearPrefix(s).None?
    ensures r.Some? ==> |r.value| == 4 && AllDigits(r.value)
  {
    match FixedCycleFields(s)
    case None => None
    case Some((yy, nn)) => Some(CodeText(yy, nn))
  }

  /** The 28-day slot a non-negative gap falls in. */
  lemma SlotBounds(g: int)
    requires g >= 0
    ensures (g / CycleDays) * CycleDays <= g < (g / CycleDays) * CycleDays + CycleDays
  {
  }

  /** The cycle of its year a date on or after the year's first cycle lies
      in, counted from 1: one of the `CyclesInYear(y)` cycles starting in `y`. */
  function SlotOrdinal(d: Date): (n: int)
    requires Valid(d)
    requires DayNumber(FirstCycleOfYear(d.year)) <= DayNumber(d)
    ensures 1 <= n <= CyclesInYear(d.year)
    ensures var f := FirstCycleOfYear(d.year);
      DayNumber(f) + (n - 1) * CycleDays <= DayNumber(d) < DayNumber(f) + n * CycleDays
  {
    WithinYear(d);
    var g := DayNumber(d) - DayNumber(FirstCycleOfYear(d.year));
    SlotBounds(g);
    g / CycleDays + 1
  }

  /** A cycle: the year it is numbered in and its ordinal there. */
  datatype Cycle = Cycle(year: int, ordinal: int)

  /** The `YYNN` code of a cycle. */
  function CycleCode(c: Cycle): string
    requires 0 <= c.ordinal < 100
  {
    CodeText(c.year % 100, c.ordinal)
  }

  /** What `calculate_cycle` computes, in day-number terms: before its
      year's first cycle a date gets the previous year's
      `number_of_cycles_in_year` as ordinal, from it on the ordinal of its
      28-day slot. */
  function CycleOfDate(d: Date): (c: Cycle)
    requires Valid(d)
    ensures 0 <= c.ordinal < 100
  {
    if DayNumber(d) < DayNumber(FirstCycleOfYear(d.year)) then
      Cycle(d.year - 1, NumberOfCyclesInYear(d.year - 1))
    else
      Cycle(d.year, SlotOrdinal(d))
  }

  /** The same with the intended previous-year count: every date gets the
      cycle it lies in, numbered 1..`CyclesInYear` within its year. */
  function FixedCycleOfDate(d: Date): (c: Cycle)
    requires Valid(d)
    ensures 1 <= c.ordinal <= CyclesInYear(c.year)
  {
    if DayNumber(d) < DayNumber(FirstCycleOfYear(d.year)) then
      Cycle(d.year - 1, CyclesInYear(d.year - 1))
    else
      Cycle(d.year, SlotOrdinal(d))
  }

  /** The intended numbering is the lattice's: the dates the `n`-th cycle
      of year `y` spans, 28 days from its start, are exactly those numbered
      `(y, n)`, including the days of the next year before its first cycle. */
  lemma FixedCycleOfSlot(y: int, n: int, d: Date)
    requires Valid(d) && 1 <= n <= CyclesInYear(y)
    requires var f := DayNumber(FirstCycleOfYear(y));
      f + (n - 1) * CycleDays <= DayNumber(d) < f + n * CycleDays
    ensures FixedCycleOfDate(d) == Cycle(y, n)
  {
    var f := FirstCycleOfYear(y);
    YearStep(y + 1);
    YearFromDayNumber(d, y, y + 2);
    if d.year == y {
      SlotUnique(SlotOrdinal(d), n, DayNumber(d) - DayNumber(f));
    } else {
      assert d.year == y + 1;
      WithinYear(d);
      assert n == CyclesInYear(y);
    }
  }

  /** `cycles_between_dates` from the year's first cycle is the slot ordinal. */
  lemma SlotIsCyclesBetween(d: Date)
    requires Valid(d)
    requires DayNumber(FirstCycleOfYear(d.year)) <= DayNumber(d)
    ensures CyclesBetweenDates(FirstCycleOfYear(d.year), d) == SlotOrdinal(d)
  {
    var f := FirstCycleOfYear(d.year);
    SlotUnique(CyclesBetweenDates(f, d), SlotOrdinal(d), DayNumber(d) - DayNumber(f));
  }

  /** In day-number terms the fields are the previous year and `before`
      ahead of the year's first cycle, and the year and slot ordinal from
      it on. */
  lemma CodeFieldsOfDate(d: Date, before: int)
    requires Valid(d) && 1001 <= d.year <= 9999 && 0 <= before < 100
    ensures var f := FirstCycleOfYear(d.year);
      CodeFields(d, CompareInt(DayNumber(d), DayNumber(f)), before)
      == if DayNumber(d) < DayNumber(f) then ((d.year - 1) % 100, before)
         else (d.year % 100, SlotOrdinal(d))
  {
    var f := FirstCycleOfYear(d.year);
    if DayNumber(d) < DayNumber(f) {
      assert CodeFields(d, Less, before) == ((d.year - 1) % 100, before);
    } else if DayNumber(d) == DayNumber(f) {
      SlotIsCyclesBetween(d);
      assert CodeFields(d, Equal, before) == (d.year % 100, 1);
    } else {
      SlotIsCyclesBetween(d);
      assert CodeFields(d, Greater, before) == (d.year % 100, CyclesBetweenDates(f, d));
    }
  }

  /** The fields as written are those of `CycleOfDate`... */
  lemma CodeFieldsOfCycle(d: Date)
    requires Valid(d) && 1001 <= d.year <= 9999
    ensures var c := CycleOfDate(d);
      CodeFields(d, CompareInt(DayNumber(d), DayNumber(FirstCycleOfYear(d.year))), NumberOfCyclesInYear(d.year - 1))
      == (c.year % 100, c.ordinal)
  {
    CodeFieldsOfDate(d, NumberOfCyclesInYear(d.year - 1));
  }

  /** ... and with the intended count, those of `FixedCycleOfDate`. */
  lemma FixedCodeFieldsOfCycle(d: Date)
    requires Valid(d) && 1001 <= d.year <= 9999
    ensures var c := FixedCycleOfDate(d);
      CodeFields(d, CompareInt(DayNumber(d), DayNumber(FirstCycleOfYear(d.year))), CyclesInYear(d.year - 1))
      == (c.year % 100, c.ordinal)
  {
    CodeFieldsOfDate(d, CyclesInYear(d.year - 1));
  }

  /** On canonical text, `calculate_cycle`'s string comparison with the
      first cycle orders the dates: its fields depend on the date alone. */
  lemma CycleFieldsByDate(s: string)
    requires ParseCanonical(s).Some? && ParseCanonical(s).value.year >= 1001
    ensures CycleInput(s)
    ensures var d := ParseCanonical(s).value;
      && CycleFields(s) == Some(CodeFields(d, CompareInt(DayNumber(d), DayNumber(FirstCycleOfYear(d.year))), NumberOfCyclesInYear(d.year - 1)))
      && FixedCycleFields(s) == Some(CodeFields(d, CompareInt(DayNumber(d), DayNumber(FirstCycleOfYear(d.year))), CyclesInYear(d.year - 1)))
  {
    var d := ParseCanonical(s).value;
    var y := d.year;
    var o := CompareText(s, Format(FirstCycleOfYear(y)));
    CompareWithFirst(s);
    assert CycleFields(s) == Some(CodeFields(d, o, NumberOfCyclesInYear(y - 1)));
    assert FixedCycleFields(s) == Some(CodeFields(d, o, CyclesInYear(y - 1)));
  }

  lemma CycleFieldsOfDate(s: string)
    requires ParseCanonical(s).Some? && ParseCanonical(s).value.year >= 1001
    ensures CycleInput(s)
    ensures var c := CycleOfDate(ParseCanonical(s).value);
      CycleFields(s) == Some((c.year % 100, c.ordinal))
  {
    var d := ParseCanonical(s).value;
    CycleFieldsByDate(s);
    var o := CompareInt(DayNumber(d), DayNumber(FirstCycleOfYear(d.year)));
    assert CycleFields(s) == Some(CodeFields(d, o, NumberOfCyclesInYear(d.year - 1)));
    CodeFieldsOfCycle(d);
  }

  lemma FixedCycleFieldsOfDate(s: string)
    requires ParseCanonical(s).Some? && ParseCanonical(s).value.year >= 1001
    ensures CycleInput(s)
    ensures var c := FixedCycleOfDate(ParseCanonical(s).value);
      FixedCycleFields(s) == Some((c.year % 100, c.ordinal))
  {
    var d := ParseCanonical(s).value;
    CycleFieldsByDate(s);
    var o := CompareInt(DayNumber(d), DayNumber(FirstCycleOfYear(d.year)));
    assert FixedCycleFields(s) == Some(CodeFields(d, o, CyclesInYear(d.year - 1)));
    FixedCodeFieldsOfCycle(d);
  }

  /** The year prefix of canonical text is its year, and its string
      comparison with the first cycle of that year orders the day numbers. */
  lemma CompareWithFirst(s: string)
    requires ParseCanonical(s).Some? && ParseCanonical(s).value.year >= 1001
    ensures var d := ParseCanonical(s).value;
      && YearPrefix(s) == Some(d.year)
      && CompareText(s, Format(FirstCycleOfYear(d.year))) == CompareInt(DayNumber(d), DayNumber(FirstCycleOfYear(d.year)))
  {
    YearPrefixOfCanonical(s);
    CompareCanonical(s, FirstCycleOfYear(ParseCanonical(s).value.year));
  }

  /** `calculate_cycle` of canonical text is the code of `CycleOfDate`. */
  lemma CalculateCycleOfDate(s: string)
    requires ParseCanonical(s).Some? && ParseCanonical(s).value.year >= 1001
    ensures CycleInput(s) && CalculateCycle(s) == Some(CycleCode(CycleOfDate(ParseCanonical(s).value)))
  {
    CycleFieldsOfDate(s);
  }

  lemma CalculateCycleFixedOfDate(s: string)
    requires ParseCanonical(s).Some? && ParseCanonical(s).value.year >= 1001
    ensures CycleInput(s) && CalculateCycleFixed(s) == Some(CycleCode(FixedCycleOfDate(ParseCanonical(s).value)))
  {
    FixedCycleFieldsOfDate(s);
  }

  /** The two versions differ only before the first cycle of the year, and
      there by exactly one in the ordinal. */
  lemma FixedCycleDiffers(d: Date)
    requires Valid(d)
    ensures DayNumber(FirstCycleOfYear(d.year)) <= DayNumber(d) ==> FixedCycleOfDate(d) == CycleOfDate(d)
    ensures DayNumber(d) < DayNumber(FirstCycleOfYear(d.year)) ==>
      CycleOfDate(d) == Cycle(FixedCycleOfDate(d).year, FixedCycleOfDate(d).ordinal + 1)
  {
    NumberOfCyclesOffByOne(d.year - 1);
  }

  /** The codes `calculate_cycle_dates` is given: at least four
      characters, the first four digits. Shorter text makes the slicing
      panic; a sign in the year slot makes the `i32` parse panic, while a
      signed ordinal such as `23-1` parses and is not modelled. */
  predicate CodeInput(code: string)
  {
    |code| >= 4 && AllDigits(code[..4])
  }

  /** The full year `format!("20{}", &cycle[0..2])` denotes. */
  function CodeYear(code: string): (y: int)
    requires CodeInput(code)
    ensures y == 2000 + DigitsValue(code[0..2])
    ensures 2000 <= y <= 2099
  {
    DigitsValueConcat("20", code[0..2]);
    DigitsValue("20" + code[0..2])
  }

  /** The ordinal `cycle[2..4]` denotes. */
  function CodeOrdinal(code: string): (n: int)
    requires CodeInput(code)
    ensures 0 <= n < 100
  {
    DigitsValue(code[2..4])
  }

  /** Dates reachable from a 21st-century year's first cycle by fewer than
      100 cycles (plus 27 days) have four-digit years. */
  lemma NearCentury(x: Date, y: int)
    requires Valid(x) && 2000 <= y <= 2099
    requires DaysBeforeYear(y) - CycleDays <= DayNumber(x) < DaysBeforeYear(y + 1) + 100 * CycleDays
    ensures 1999 <= x.year < 2200
  {
    YearStep(1999);
    DaysBeforeYearMonotone(2000, y);
    DaysBeforeYearMonotone(y + 1, 2200);
    YearFromDayNumber(x, 1999, 2200);
  }

  /** The start of the cycle a code names: the year's first cycle moved
      forward by `ordinal - 1` cycles. */
  function CycleStart(code: string): (d: Date)
    requires CodeInput(code)
    ensures Valid(d) && IsCycleDate(d) && FourDigitYear(d)
    ensures DayNumber(d) == DayNumber(FirstCycleOfYear(CodeYear(code))) + (CodeOrdinal(code) - 1) * CycleDays
  {
    var y := CodeYear(code);
    var f := FirstCycleOfYear(y);
    var n := CodeOrdinal(code);
    var k := (n - 1) * CycleDays;
    assert -CycleDays <= k < 99 * CycleDays;
    var d := AddDays(f, k);
    WithinYear(f);
    NearCentury(d, y);
    WholeCycles(n - 1);
    CycleDateShift(f, k);
    d
  }

  /** `calculate_cycle_dates`: the start and end (27 days later) of the
      cycle a code names, as canonical text. */
  function CalculateCycleDates(code: string): (r: (string, string))
    requires CodeInput(code)
    ensures ParseCanonical(r.0).Some? && ParseCanonical(r.1).Some?
    ensures IsCycleDate(ParseCanonical(r.0).value)
    ensures DayNumber(ParseCanonical(r.0).value)
         == DayNumber(FirstCycleOfYear(CodeYear(code))) + (CodeOrdinal(code) - 1) * CycleDays
    ensures DayNumber(ParseCanonical(r.1).value) == DayNumber(ParseCanonical(r.0).value) + 27
  {
    var start := CycleStart(code);
    var end := AddDays(start, 27);
    var y := CodeYear(code);
    WithinYear(FirstCycleOfYear(y));
    NearCentury(end, y);
    ParseFormat(start);
    ParseFormat(end);
    (Format(start), Format(end))
  }

  /** Decoding the code of a cycle of 2000..2099: its start is `ordinal - 1`
      cycles after the first cycle of its year, and its end 27 days later. */
  lemma CycleCodeDecodes(c: Cycle)
    requires 2000 <= c.year <= 2099 && 0 <= c.ordinal < 100
    ensures CodeInput(CycleCode(c))
    ensures var r := CalculateCycleDates(CycleCode(c));
      && DayNumber(ParseCanonical(r.0).value) == DayNumber(FirstCycleOfYear(c.year)) + (c.ordinal - 1) * CycleDays
      && DayNumber(ParseCanonical(r.1).value) == DayNumber(ParseCanonical(r.0).value) + 27
  {
    var code := CycleCode(c);
    assert CodeInput(code) by {
      assert code[..4] == code;
    }
    CodeTextFields(c.year % 100, c.ordinal);
    assert CodeYear(code) == c.year;
    assert CodeOrdinal(code) == c.ordinal;
  }

  /** The date canonical text denotes. */
  function DateOf(s: string): (d: Date)
    requires ParseCanonical(s).Some?
    ensures Valid(d) && FourDigitYear(d)
  {
    ParseCanonical(s).value
  }

  /** The decoded range of `r` holds `d`. */
  predicate RangeContains(r: (string, string), d: Date)
    requires Valid(d)
  {
    && ParseCanonical(r.0).Some? && ParseCanonical(r.1).Some?
    && DayNumber(DateOf(r.0)) <= DayNumber(d) <= DayNumber(DateOf(r.1))
  }

  /** A date on or after its year's first cycle (of 2000..2099) lies in the
      range its slot's code decodes to. */
  lemma SlotContains(d: Date)
    requires Valid(d) && 2000 <= d.year <= 2099
    requires DayNumber(FirstCycleOfYear(d.year)) <= DayNumber(d)
    ensures CodeInput(CycleCode(Cycle(d.year, SlotOrdinal(d))))
    ensures RangeContains(CalculateCycleDates(CycleCode(Cycle(d.year, SlotOrdinal(d)))), d)
  {
    CycleCodeDecodes(Cycle(d.year, SlotOrdinal(d)));
  }

  /** Round trip on dates: the code of a cycle-start date of 2000..2099
      decodes to a range starting at that date. */
  lemma CycleCodeRoundTrip(d: Date)
    requires Valid(d) && 2000 <= d.year <= 2099 && IsCycleDate(d)
    ensures CodeInput(CycleCode(CycleOfDate(d)))
    ensures CalculateCycleDates(CycleCode(CycleOfDate(d))).0 == Format(d)
  {
    var f := FirstCycleOfYear(d.year);
    CycleDateFromFirst(d);
    var c := CycleOfDate(d);
    var gap := DayNumber(d) - DayNumber(f);
    assert gap % CycleDays == 0 by {
      LatticeShift(DaysSinceEpoch(f), gap);
    }
    WholeCycles(c.ordinal - 1);
    LatticeUnique(gap, (c.ordinal - 1) * CycleDays);
    CycleCodeDecodes(c);
    var r := CalculateCycleDates(CycleCode(c));
    DayNumberInjective(DateOf(r.0), d);
    FormatParse(r.0);
  }

  /** Round trip on text: for the canonical text of every cycle-start date
      of 2000..2099, decoding the code `calculate_cycle` gives recovers that
      exact text as the start. */
  lemma CycleDatesRoundTrip(s: string)
    requires ParseCanonical(s).Some? && 2000 <= DateOf(s).year <= 2099 && IsCycleDate(DateOf(s))
    ensures CycleInput(s) && CalculateCycle(s).Some? && CodeInput(CalculateCycle(s).value)
    ensures CalculateCycleDates(CalculateCycle(s).value).0 == s
  {
    CalculateCycleOfDate(s);
    CycleCodeRoundTrip(DateOf(s));
    FormatParse(s);
  }

  /** A date on or after its year's first cycle is inside the range its
      code decodes to. */
  lemma CycleContainsDateFromFirst(s: string)
    requires ParseCanonical(s).Some? && 2000 <= DateOf(s).year <= 2099
    requires DayNumber(FirstCycleOfYear(DateOf(s).year)) <= DayNumber(DateOf(s))
    ensures CycleInput(s) && CalculateCycle(s).Some? && CodeInput(CalculateCycle(s).value)
    ensures RangeContains(CalculateCycleDates(CalculateCycle(s).value), DateOf(s))
  {
    CalculateCycleOfDate(s);
    SlotContains(DateOf(s));
  }

  /** As written, the previous year's `number_of_cycles_in_year` names the
      cycle after that year's last: the first cycle of the next year. */
  lemma LastCodeStartsNextYear(y: int)
    requires 2000 <= y <= 2098
    ensures CodeInput(CycleCode(Cycle(y, NumberOfCyclesInYear(y))))
    ensures ParseCanonical(CalculateCycleDates(CycleCode(Cycle(y, NumberOfCyclesInYear(y)))).0)
         == Some(FirstCycleOfYear(y + 1))
  {
    var c := Cycle(y, NumberOfCyclesInYear(y));
    CycleCodeDecodes(c);
    var r := CalculateCycleDates(CycleCode(c));
    DayNumberInjective(DateOf(r.0), FirstCycleOfYear(y + 1));
  }

  /** As written, a date before its year's first cycle gets a code whose
      decoded range starts at that first cycle, after the date: the range
      does not contain it. */
  lemma CycleMissesDateBeforeFirst(s: string)
    requires ParseCanonical(s).Some? && 2001 <= DateOf(s).year <= 2099
    requires DayNumber(DateOf(s)) < DayNumber(FirstCycleOfYear(DateOf(s).year))
    ensures CycleInput(s) && CalculateCycle(s).Some? && CodeInput(CalculateCycle(s).value)
    ensures var r := CalculateCycleDates(CalculateCycle(s).value);
      ParseCanonical(r.0) == Some(FirstCycleOfYear(DateOf(s).year)) && !RangeContains(r, DateOf(s))
  {
    var d := DateOf(s);
    var c := Cycle(d.year - 1, NumberOfCyclesInYear(d.year - 1));
    assert CycleInput(s) && CalculateCycle(s) == Some(CycleCode(c)) by {
      CalculateCycleOfDate(s);
    }
    LastCodeStartsNextYear(d.year - 1);
    assert d.year - 1 + 1 == d.year;
  }

  /** With the intended count, a date before its year's first cycle lies in
      the previous year's last cycle, which ends the day before. */
  lemma FixedCodeBeforeFirst(d: Date)
    requires Valid(d) && 2001 <= d.year <= 2099
    requires DayNumber(d) < DayNumber(FirstCycleOfYear(d.year))
    ensures CodeInput(CycleCode(FixedCycleOfDate(d)))
    ensures RangeContains(CalculateCycleDates(CycleCode(FixedCycleOfDate(d))), d)
  {
    var y := d.year - 1;
    var c := Cycle(y, CyclesInYear(y));
    assert FixedCycleOfDate(d) == c;
    CycleCodeDecodes(c);
    assert y + 1 == d.year;
    WithinYear(d);
  }

  /** With the intended count, every date of 2001..2099 is inside the range
      its code decodes to. */
  lemma FixedCycleCodeContains(d: Date)
    requires Valid(d) && 2001 <= d.year <= 2099
    ensures CodeInput(CycleCode(FixedCycleOfDate(d)))
    ensures RangeContains(CalculateCycleDates(CycleCode(FixedCycleOfDate(d))), d)
  {
    if DayNumber(d) < DayNumber(FirstCycleOfYear(d.year)) {
      FixedCodeBeforeFirst(d);
    } else {
      SlotContains(d);
    }
  }

  /** The same for text: every ordinal is within 1..14 and every date lies
      in the range its code decodes to. */
  lemma FixedCycleContainsDate(s: string)
    requires ParseCanonical(s).Some? && 2001 <= DateOf(s).year <= 2099
    ensures CycleInput(s) && CalculateCycleFixed(s).Some? && CodeInput(CalculateCycleFixed(s).value)
    ensures 1 <= CodeOrdinal(CalculateCycleFixed(s).value) <= 14
    ensures RangeContains(CalculateCycleDates(CalculateCycleFixed(s).value), DateOf(s))
  {
    var c := FixedCycleOfDate(DateOf(s));
    CalculateCycleFixedOfDate(s);
    FixedCycleCodeContains(DateOf(s));
    CodeTextFields(c.year % 100, c.ordinal);
  }
}

=== FILE: cycle_clock_examples.dfy ===
/** The unit-test expectations of the cycle arithmetic, stated for the
    model. Where the model disagrees with an expectation, the lemma states
    what the code as written computes and the intended variant meets the
    expectation. */
module CycleClockExamples {

  import opened Wrappers
  import opened CivilDate
  import opened DateText
  import opened CycleClock

  /** New Year day numbers of the years the examples need. */
  lemma NewYears()
    ensures DaysBeforeYear(2020) == 737424 && DaysBeforeYear(2021) == 737790
    ensures DaysBeforeYear(2022) == 738155 && DaysBeforeYear(2023) == 738520
    ensures DaysBeforeYear(2024) == 738885
  {
    DaysBeforeYearFormula(2020);
    YearStep(2020);
    YearStep(2021);
    YearStep(2022);
    YearStep(2023);
  }

  /** 2023-12-28 is twelve cycles after the epoch; the day before is not a
      cycle date. */
  lemma IsCycleDateExamples()
    ensures IsCycleDate(Date(2023, 12, 28))
    ensures !IsCycleDate(Date(2023, 12, 27))
  {
    NewYears();
    assert DayNumber(Date(2023, 12, 28)) == 738881;
    assert DayNumber(Date(2023, 12, 27)) == 738880;
  }

  /** The first cycle of 2023 is the epoch itself. */
  lemma FirstCycleOf2023()
    ensures FirstCycleOfYear(2023) == Epoch
  {
    NewYears();
    assert DaysToNextCycle(NewYear(2023)) == 25;
  }

  /** First cycles of the years the counting examples need. */
  lemma FirstCycleOf2020()
    ensures FirstCycleOfYear(2020) == Date(2020, 1, 2)
  {
    NewYears();
    assert DaysToNextCycle(NewYear(2020)) == 1;
  }

  lemma FirstCycleOf2021()
    ensures FirstCycleOfYear(2021) == Date(2021, 1, 28)
  {
    NewYears();
    assert DaysToNextCycle(NewYear(2021)) == 27;
  }

  lemma FirstCycleOf2022()
    ensures FirstCycleOfYear(2022) == Date(2022, 1, 27)
  {
    NewYears();
    assert DaysToNextCycle(NewYear(2022)) == 26;
  }

  lemma FirstCycleOf2024()
    ensures FirstCycleOfYear(2024) == Date(2024, 1, 25)
  {
    NewYears();
    assert DaysToNextCycle(NewYear(2024)) == 24;
  }

  /** As written, 2023 counts 14 and 2020 counts 15, one more than the 13
      and 14 cycles that start in those years, which the intended count
      gives. */
  lemma CycleCountExamples()
    ensures NumberOfCyclesInYear(2023) == 14 && CyclesInYear(2023) == 13
    ensures NumberOfCyclesInYear(2020) == 15 && CyclesInYear(2020) == 14
  {
    NewYears();
    FirstCycleOf2023();
    FirstCycleOf2024();
    FirstCycleOf2020();
    FirstCycleOf2021();
    assert DayNumber(Epoch) == 738545 && DayNumber(Date(2024, 1, 25)) == 738909;
    assert DayNumber(Date(2020, 1, 2)) == 737425 && DayNumber(Date(2021, 1, 28)) == 737817;
    NumberOfCyclesOffByOne(2023);
    NumberOfCyclesOffByOne(2020);
  }

  /** The last day of the first cycle of 2023 is in slot 1; the next day
      starts slot 2. */
  lemma CyclesBetweenExamples()
    ensures CyclesBetweenDates(Epoch, Date(2023, 2, 22)) == 1
    ensures CyclesBetweenDates(Epoch, Date(2023, 2, 23)) == 2
  {
    assert DayNumber(Date(2023, 2, 22)) - DayNumber(Epoch) == 27;
  }

  /** The texts of the dates the examples use. */
  lemma FormatExamples()
    ensures Format(Epoch) == "2023-01-26"
    ensures Format(Date(2023, 2, 22)) == "2023-02-22"
    ensures Format(Date(2023, 1, 1)) == "2023-01-01"
  {
    FormatOfEpoch();
    FormatOfCycleEnd();
    FormatOfNewYear();
  }

  lemma YearText2023()
    ensures YearText(2023) == "2023"
  {
  }

  /** Two-digit padding, digit by digit. */
  lemma PadTwo(n: nat)
    requires n < 100
    ensures Pad(n, 2) == [DigitChar(n / 10), DigitChar(n % 10)]
  {
    assert n / 10 / 10 == 0 && n / 10 % 10 == n / 10;
    calc {
      Pad(n, 2);
      Pad(n / 10, 1) + [DigitChar(n % 10)];
      (Pad(0, 0) + [DigitChar(n / 10)]) + [DigitChar(n % 10)];
    }
  }

  lemma FormatOfEpoch()
    ensures Format(Epoch) == "2023-01-26"
  {
    assert YearText(2023) == "2023" by { YearText2023(); }
    assert Pad(1, 2) == "01" by { PadTwo(1); }
    assert Pad(26, 2) == "26" by { PadTwo(26); }
  }

  lemma FormatOfCycleEnd()
    ensures Format(Date(2023, 2, 22)) == "2023-02-22"
  {
    assert YearText(2023) == "2023" by { YearText2023(); }
    assert Pad(2, 2) == "02" by { PadTwo(2); }
    assert Pad(22, 2) == "22" by { PadTwo(22); }
  }

  lemma FormatOfNewYear()
    ensures Format(Date(2023, 1, 1)) == "2023-01-01"
  {
    assert YearText(2023) == "2023" by { YearText2023(); }
    assert Pad(1, 2) == "01" by { PadTwo(1); }
  }

  /** The code of a cycle of 2022 or 2023 with a one-digit ordinal or one
      of 13 and 14. */
  lemma CodeExamples()
    ensures CycleCode(Cycle(2023, 1)) == "2301"
    ensures CycleCode(Cycle(2022, 13)) == "2213"
    ensures CycleCode(Cycle(2022, 14)) == "2214"
  {
    Code2301();
    Code2213();
    Code2214();
  }

  lemma Code2301()
    ensures CycleCode(Cycle(2023, 1)) == "2301"
  {
    CodeOf(23, 1);
  }

  lemma Code2213()
    ensures CycleCode(Cycle(2022, 13)) == "2213"
  {
    CodeOf(22, 13);
  }

  lemma Code2214()
    ensures CycleCode(Cycle(2022, 14)) == "2214"
  {
    CodeOf(22, 14);
  }

  lemma CodeOf(yy: nat, nn: nat)
    requires yy < 100 && nn < 100
    ensures CodeText(yy, nn) == [DigitChar(yy / 10), DigitChar(yy % 10), DigitChar(nn / 10), DigitChar(nn % 10)]
  {
    PadTwo(yy);
    PadTwo(nn);
  }

  /** The epoch is the first cycle of 2023: code `2301`. */
  lemma CalculateCycleOfEpoch()
    ensures CycleInput("2023-01-26") && CalculateCycle("2023-01-26") == Some("2301")
  {
    FormatExamples();
    ParseFormat(Epoch);
    CalculateCycleOfDate("2023-01-26");
    assert CycleOfDate(Epoch) == Cycle(2023, 1) by {
      FirstCycleOf2023();
    }
    CodeExamples();
  }

  /** As written, New Year's Day 2023 (before the first cycle of 2023)
      gets `2214`, the code of 2023's first cycle under 2022's numbering;
      the intended count gives `2213`, the cycle it lies in. */
  lemma CalculateCycleOfNewYear2023()
    ensures CycleInput("2023-01-01")
    ensures CalculateCycle("2023-01-01") == Some("2214")
    ensures CalculateCycleFixed("2023-01-01") == Some("2213")
  {
    var d := Date(2023, 1, 1);
    FormatExamples();
    ParseFormat(d);
    CalculateCycleOfDate("2023-01-01");
    CalculateCycleFixedOfDate("2023-01-01");
    assert CyclesInYear(2022) == 13 && NumberOfCyclesInYear(2022) == 14 by {
      NewYears();
      FirstCycleOf2022();
      FirstCycleOf2023();
      assert DayNumber(Date(2022, 1, 27)) == 738181 && DayNumber(Epoch) == 738545;
      NumberOfCyclesOffByOne(2022);
    }
    assert DayNumber(d) < DayNumber(FirstCycleOfYear(2023)) by {
      NewYears();
      FirstCycleOf2023();
      assert DayNumber(Epoch) == 738545;
    }
    assert CycleOfDate(d) == Cycle(2022, 14);
    assert FixedCycleOfDate(d) == Cycle(2022, 13);
    CodeExamples();
  }

  /** Text without a numeric year prefix has no cycle. */
  lemma CalculateCycleOfInvalidText()
    ensures CycleInput("invaliddate") && CalculateCycle("invaliddate") == None
  {
    var t := "invaliddate";
    assert YearPrefix(t) == None by {
      assert '-' !in t;
      BeforeDashWhole(t);
      assert !IsDigit(t[0]);
    }
  }

  /** Text without a dash is its own first `split('-')` item. */
  lemma {:induction false} BeforeDashWhole(t: string)
    requires '-' !in t
    ensures BeforeDash(t) == t
  {
    if |t| > 0 {
      assert '-' !in t[1..];
      BeforeDashWhole(t[1..]);
      assert [t[0]] + t[1..] == t;
    }
  }

  /** Code `2301` decodes to the first cycle of 2023, 2023-01-26 through
      2023-02-22. */
  lemma CalculateCycleDatesOf2301()
    ensures CodeInput("2301")
    ensures CalculateCycleDates("2301") == ("2023-01-26", "2023-02-22")
  {
    RangeOf2301();
    var r := CalculateCycleDates("2301");
    assert r.0 == "2023-01-26" by {
      DayNumberInjective(DateOf(r.0), Epoch);
      FormatParse(r.0);
      FormatOfEpoch();
    }
    assert r.1 == "2023-02-22" by {
      DayNumberInjective(DateOf(r.1), Date(2023, 2, 22));
      FormatParse(r.1);
      FormatOfCycleEnd();
    }
  }

  /** The day numbers of the range `2301` decodes to. */
  lemma RangeOf2301()
    ensures CodeInput("2301")
    ensures var r := CalculateCycleDates("2301");
      && DayNumber(DateOf(r.0)) == DayNumber(Epoch)
      && DayNumber(DateOf(r.1)) == DayNumber(Date(2023, 2, 22))
  {
    CodeExamples();
    CycleCodeDecodes(Cycle(2023, 1));
    FirstCycleOf2023();
    EpochDayNumber();
    NewYears();
  }
}

=== FILE: date_text.dfy ===
/** Decimal text, the canonical `YYYY-MM-DD` form of a date (chrono's
    `to_string` and `%Y-%m-%d`), Rust's `str` ordering and its `i64` parser. */
module DateText {

  import opened Wrappers
  import opened CivilDate

  predicate IsDigit(c: char)
  {
    '0' <= c <= '9'
  }

  predicate AllDigits(s: string)
  {
    forall i :: 0 <= i < |s| ==> IsDigit(s[i])
  }

  function DigitChar(n: int): (c: char)
    requires 0 <= n < 10
    ensures IsDigit(c)
  {
    ('0' as int + n) as char
  }

  function DigitValue(c: char): (n: int)
    requires IsDigit(c)
    ensures 0 <= n < 10 && DigitChar(n) == c
  {
    c as int - '0' as int
  }

  function Pow10(n: nat): (p: nat)
    ensures p >= 1
  {
    if n == 0 then 1 else 10 * Pow10(n - 1)
  }

  /** `n` written in exactly `w` decimal digits with leading zeros (`{:0w}`). */
  function Pad(n: nat, w: nat): (s: string)
    requires n < Pow10(w)
    ensures |s| == w && AllDigits(s)
  {
    if w == 0 then [] else Pad(n / 10, w - 1) + [DigitChar(n % 10)]
  }

  /** The number a string of decimal digits denotes. */
  function DigitsValue(s: string): (n: nat)
    requires AllDigits(s)
    ensures n < Pow10(|s|)
  {
    if |s| == 0 then 0 else 10 * DigitsValue(s[..|s| - 1]) + DigitValue(s[|s| - 1])
  }

  lemma {:induction false} DigitsValueOfPad(n: nat, w: nat)
    requires n < Pow10(w)
    ensures DigitsValue(Pad(n, w)) == n
  {
    if w > 0 {
      var s := Pad(n, w);
      assert s[..|s| - 1] == Pad(n / 10, w - 1);
      DigitsValueOfPad(n / 10, w - 1);
    }
  }

  lemma {:induction false} PadOfDigitsValue(s: string)
    requires AllDigits(s)
    ensures Pad(DigitsValue(s), |s|) == s
  {
    if |s| > 0 {
      var init := s[..|s| - 1];
      PadOfDigitsValue(init);
      var n := DigitsValue(s);
      assert n / 10 == DigitsValue(init);
      assert n % 10 == DigitValue(s[|s| - 1]);
      assert s == init + [s[|s| - 1]];
    }
  }

  lemma MulTen(x: int, p: int)
    ensures 10 * (x * p) == x * (10 * p)
  {
  }

  /** The value of concatenated digit strings. */
  lemma {:induction false} DigitsValueConcat(a: string, b: string)
    requires AllDigits(a) && AllDigits(b)
    ensures AllDigits(a + b)
    ensures DigitsValue(a + b) == DigitsValue(a) * Pow10(|b|) + DigitsValue(b)
  {
    if |b| > 0 {
      var b' := b[..|b| - 1];
      assert (a + b)[..|a + b| - 1] == a + b';
      DigitsValueConcat(a, b');
      MulTen(DigitsValue(a), Pow10(|b'|));
    } else {
      assert a + b == a;
    }
  }

  /** Zero-padded text is injective. */
  lemma PadInjective(n: nat, m: nat, w: nat)
    requires n < Pow10(w) && m < Pow10(w) && Pad(n, w) == Pad(m, w)
    ensures n == m
  {
    DigitsValueOfPad(n, w);
    DigitsValueOfPad(m, w);
  }

  /** A four-digit field splits into its two high and two low digits. */
  lemma PadSplit4(n: nat)
    requires n < 10000
    ensures Pad(n, 4) == Pad(n / 100, 2) + Pad(n % 100, 2)
  {
    var lo := n % 100;
    assert n / 10 / 10 == n / 100 && (n / 10) % 10 == lo / 10 && lo % 10 == n % 10;
    assert Pad(lo / 10, 1) == [DigitChar(lo / 10)];
    assert Pad(lo, 2) == [DigitChar(lo / 10)] + [DigitChar(n % 10)];
    assert Pad(n / 10, 3) == Pad(n / 100, 2) + [DigitChar(lo / 10)];
    assert Pad(n, 4) == Pad(n / 10, 3) + [DigitChar(n % 10)];
  }

  /** Rust's ordering on `str`: lexicographic by byte. UTF-8 preserves code
      point order, so comparing characters gives the same answer. */
  function CompareText(a: string, b: string): (o: Ordering)
  {
    if |a| == 0 then (if |b| == 0 then Equal else Less)
    else if |b| == 0 then Greater
    else if a[0] < b[0] then Less
    else if a[0] > b[0] then Greater
    else CompareText(a[1..], b[1..])
  }

  /** Text comparison says `Equal` exactly for equal texts. */
  lemma {:induction false} CompareTextEqual(a: string, b: string)
    ensures CompareText(a, b) == Equal <==> a == b
  {
    if |a| > 0 && |b| > 0 && a[0] == b[0] {
      CompareTextEqual(a[1..], b[1..]);
      assert a == [a[0]] + a[1..] && b == [b[0]] + b[1..];
    }
  }

  /** Comparing two texts whose first parts have equal length. */
  lemma {:induction false} CompareConcat(a1: string, a2: string, b1: string, b2: string)
    requires |a1| == |b1|
    ensures CompareText(a1 + a2, b1 + b2)
         == if a1 == b1 then CompareText(a2, b2) else CompareText(a1, b1)
  {
    if |a1| > 0 {
      assert (a1 + a2)[0] == a1[0] && (b1 + b2)[0] == b1[0];
      assert (a1 + a2)[1..] == a1[1..] + a2;
      assert (b1 + b2)[1..] == b1[1..] + b2;
      CompareConcat(a1[1..], a2, b1[1..], b2);
      if a1[0] == b1[0] {
        assert a1 == [a1[0]] + a1[1..] && b1 == [b1[0]] + b1[1..];
      }
    } else {
      assert a1 + a2 == a2 && b1 + b2 == b2;
    }
  }

  /** For zero-padded numbers of equal width, text order is numeric order. */
  lemma {:induction false} ComparePad(n: nat, m: nat, w: nat)
    requires n < Pow10(w) && m < Pow10(w)
    ensures CompareText(Pad(n, w), Pad(m, w)) == CompareInt(n, m)
  {
    if w > 0 {
      var hn, hm := Pad(n / 10, w - 1), Pad(m / 10, w - 1);
      var ln, lm := [DigitChar(n % 10)], [DigitChar(m % 10)];
      CompareConcat(hn, ln, hm, lm);
      if hn == hm {
        PadInjective(n / 10, m / 10, w - 1);
        assert ln[1..] == [] && lm[1..] == [];
      } else {
        ComparePad(n / 10, m / 10, w - 1);
      }
    }
  }

  /** chrono's year field: four digits within 0..9999, otherwise a sign and
      at least four digits. */
  function YearText(y: int): string
  {
    if 0 <= y < Pow10(4) then Pad(y, 4)
    else if y >= Pow10(4) then "+" + Decimal(y)
    else if -y < Pow10(4) then "-" + Pad(-y, 4)
    else "-" + Decimal(-y)
  }

  /** Shortest decimal text of a natural number. */
  function Decimal(n: nat): (s: string)
    ensures |s| >= 1 && AllDigits(s)
  {
    if n < 10 then [DigitChar(n)] else Decimal(n / 10) + [DigitChar(n % 10)]
  }

  /** The `YYYY-MM-DD` text of a date (chrono's `Display` and `%Y-%m-%d`). */
  function Format(d: Date): string
    requires Valid(d)
  {
    YearText(d.year) + "-" + Pad(d.month, 2) + "-" + Pad(d.day, 2)
  }

  /** A date in four-digit-year range, whose text is the canonical ten characters. */
  predicate FourDigitYear(d: Date)
  {
    0 <= d.year <= 9999
  }

  /** Reading canonical `YYYY-MM-DD` text: exactly ten characters, digits and
      dashes in place, naming a date that exists. */
  function ParseCanonical(s: string): (r: Option<Date>)
    ensures r.Some? ==> Valid(r.value) && FourDigitYear(r.value)
  {
    if |s| == 10 && AllDigits(s[0..4]) && s[4] == '-' && AllDigits(s[5..7])
       && s[7] == '-' && AllDigits(s[8..10]) then
      var d := Date(DigitsValue(s[0..4]), DigitsValue(s[5..7]), DigitsValue(s[8..10]));
      if Valid(d) then Some(d) else None
    else None
  }

  lemma FormatLayout(d: Date)
    requires Valid(d) && FourDigitYear(d)
    ensures var s := Format(d);
      && |s| == 10
      && s[0..4] == Pad(d.year, 4) && s[4] == '-'
      && s[5..7] == Pad(d.month, 2) && s[7] == '-'
      && s[8..10] == Pad(d.day, 2)
  {
  }

  /** Formatting then parsing gives the date back. */
  lemma ParseFormat(d: Date)
    requires Valid(d) && FourDigitYear(d)
    ensures ParseCanonical(Format(d)) == Some(d)
  {
    FormatLayout(d);
    DigitsValueOfPad(d.year, 4);
    DigitsValueOfPad(d.month, 2);
    DigitsValueOfPad(d.day, 2);
  }

  /** Ten characters with dashes at 4 and 7 are their three fields joined by dashes. */
  lemma CanonicalFields(s: string)
    requires |s| == 10 && s[4] == '-' && s[7] == '-'
    ensures s == s[0..4] + "-" + s[5..7] + "-" + s[8..10]
  {
  }

  /** Parsing then formatting gives the text back: canonical text is exactly
      the image of `Format`. */
  lemma FormatParse(s: string)
    requires ParseCanonical(s).Some?
    ensures Format(ParseCanonical(s).value) == s
  {
    var d := ParseCanonical(s).value;
    PadOfDigitsValue(s[0..4]);
    PadOfDigitsValue(s[5..7]);
    PadOfDigitsValue(s[8..10]);
    assert YearText(d.year) == s[0..4];
    CanonicalFields(s);
  }

  /** Comparing canonical texts as strings compares the dates: the string
      comparison the cycle code relies on is sound only for this form. */
  lemma CompareFormat(a: Date, b: Date)
    requires Valid(a) && FourDigitYear(a) && Valid(b) && FourDigitYear(b)
    ensures CompareText(Format(a), Format(b)) == CompareInt(DayNumber(a), DayNumber(b))
  {
    CompareDatesByDayNumber(a, b);
    var ya, yb := Pad(a.year, 4), Pad(b.year, 4);
    var ma, mb := Pad(a.month, 2), Pad(b.month, 2);
    var da, db := Pad(a.day, 2), Pad(b.day, 2);
    assert Format(a) == ya + ("-" + (ma + ("-" + da)));
    assert Format(b) == yb + ("-" + (mb + ("-" + db)));
    CompareConcat(ya, "-" + (ma + ("-" + da)), yb, "-" + (mb + ("-" + db)));
    ComparePad(a.year, b.year, 4);
    if ya == yb {
      PadInjective(a.year, b.year, 4);
      CompareConcat("-", ma + ("-" + da), "-", mb + ("-" + db));
      CompareConcat(ma, "-" + da, mb, "-" + db);
      ComparePad(a.month, b.month, 2);
      if ma == mb {
        PadInjective(a.month, b.month, 2);
        CompareConcat("-", da, "-", db);
        ComparePad(a.day, b.day, 2);
      }
    }
  }

  const I64Min: int := -0x8000_0000_0000_0000
  const I64Max: int := 0x7FFF_FFFF_FFFF_FFFF

  /** Rust's `str::parse::<i64>`: an optional `+` or `-`, then one or more
      digits, denoting a value in the `i64` range. */
  function ParseI64(t: string): (r: Option<int>)
    ensures r.Some? ==> I64Min <= r.value <= I64Max
    ensures AllDigits(t) && 0 < |t| && DigitsValue(t) <= I64Max ==> r == Some(DigitsValue(t))
  {
    var negative := |t| > 0 && t[0] == '-';
    var digits := if |t| > 0 && (t[0] == '+' || t[0] == '-') then t[1..] else t;
    if |digits| == 0 || !AllDigits(digits) then None
    else
      var magnitude: int := DigitsValue(digits);
      var v := if negative then -magnitude else magnitude;
      if I64Min <= v <= I64Max then Some(v) else None
  }

  /** The text before the first `-` (the first item of `split('-')`). */
  function BeforeDash(s: string): (p: string)
    ensures p <= s && '-' !in p
    ensures |p| < |s| ==> s[|p|] == '-'
  {
    if |s| == 0 || s[0] == '-' then [] else [s[0]] + BeforeDash(s[1..])
  }

  /** `s.split('-').collect::<Vec<_>>()[0].parse::<i64>()`, as an option. */
  function YearPrefix(s: string): Option<int>
  {
    ParseI64(BeforeDash(s))
  }

  lemma {:induction false} BeforeDashConcat(a: string, b: string)
    requires '-' !in a
    ensures BeforeDash(a + "-" + b) == a
  {
    if |a| > 0 {
      assert (a + "-" + b)[1..] == a[1..] + "-" + b;
      BeforeDashConcat(a[1..], b);
      assert a == [a[0]] + a[1..];
    }
  }

  /** The year prefix of canonical text is the date's year. */
  lemma YearPrefixOfFormat(d: Date)
    requires Valid(d) && FourDigitYear(d)
    ensures YearPrefix(Format(d)) == Some(d.year)
  {
    var y := Pad(d.year, 4);
    assert '-' !in y by {
      assert AllDigits(y);
    }
    assert Format(d) == y + "-" + (Pad(d.month, 2) + "-" + Pad(d.day, 2));
    BeforeDashConcat(y, Pad(d.month, 2) + "-" + Pad(d.day, 2));
    DigitsValueOfPad(d.year, 4);
  }

  /** The year prefix of canonical text is the year it denotes. */
  lemma YearPrefixOfCanonical(s: string)
    requires ParseCanonical(s).Some?
    ensures YearPrefix(s) == Some(ParseCanonical(s).value.year)
  {
    FormatParse(s);
    YearPrefixOfFormat(ParseCanonical(s).value);
  }

  /** Comparing canonical text with another date's text compares the dates. */
  lemma CompareCanonical(s: string, e: Date)
    requires ParseCanonical(s).Some? && Valid(e) && FourDigitYear(e)
    ensures CompareText(s, Format(e)) == CompareInt(DayNumber(ParseCanonical(s).value), DayNumber(e))
  {
    FormatParse(s);
    CompareFormat(ParseCanonical(s).value, e);
  }
}

=== FILE: ingest.dfy ===
/** The traversal of `parse_data`: which charts of the metafile become rows,
    what each row holds, and the two counters it reports. Each emitted row
    is one `update_chart` call; the store side is in `ChartStore`. */
module Ingest {

  import opened Wrappers
  import opened ChartDocument

  /** The eight columns `update_chart` binds, in order. */
  datatype Row = Row(
    id: string, airportId: string, cycle: string, fromDate: string,
    toDate: string, chartCode: string, chartName: string, chartUrl: string)

  /** What a run passes to `parse_data` besides the document: the state
      allow-list, the cycle code and the cycle's first and last day. */
  datatype Params = Params(states: seq<string>, cycle: string, startDate: string, endDate: string)

  /** The allow-list entry that selects every state. */
  const All: string := "ALL"

  /** Chart codes kept as they are; every other code is filed as `Other`. */
  const KnownTypes: set<string> := {"DP", "STAR", "IAP"}

  const Other: string := "OTHER"

  const ChartBaseUrl: string := "https://aeronav.faa.gov/d-tpp/"

  /** The chart type of a record. */
  function ChartType(code: string): (t: string)
    ensures t in KnownTypes || t == Other
  {
    if code == "DP" || code == "STAR" || code == "IAP" then code else Other
  }

  /** A code is kept exactly when it is one of the three known types, or
      is `OTHER` itself. */
  lemma ChartTypeFixedPoints(code: string)
    ensures ChartType(code) == code <==> code in KnownTypes || code == Other
    ensures code !in KnownTypes ==> ChartType(code) == Other
  {
  }

  /** `FAA-{apt}-{type}-{name}`. */
  function ChartId(apt: string, chartType: string, name: string): string
  {
    "FAA-" + apt + "-" + chartType + "-" + name
  }

  /** `https://aeronav.faa.gov/d-tpp/{cycle}/{pdf}`. */
  function ChartUrl(cycle: string, pdf: string): string
  {
    ChartBaseUrl + cycle + "/" + pdf
  }

  /** The row `update_chart` is called with for chart `ch` of airport `apt`. */
  function ChartRow(apt: string, ch: Chart, p: Params): Row
  {
    var t := ChartType(ch.chartCode);
    Row(ChartId(apt, t, ch.chartName), apt, p.cycle, p.startDate, p.endDate, t, ch.chartName, ChartUrl(p.cycle, ch.pdfName))
  }

  /** The test at the top of the city loop; it reads only the state. */
  predicate StateSelected(states: seq<string>, stateId: string)
  {
    stateId in states || All in states
  }

  /** An airport is ingested when it has both an ident and a record list
      (possibly empty). */
  predicate Ingested(a: Airport)
  {
    a.aptIdent.Some? && a.records.Some?
  }

  /** The rows of `charts`, in order. */
  function ChartRows(apt: string, charts: seq<Chart>, p: Params): seq<Row>
  {
    if |charts| == 0 then []
    else ChartRows(apt, charts[..|charts| - 1], p) + [ChartRow(apt, charts[|charts| - 1], p)]
  }

  function AirportRows(a: Airport, p: Params): seq<Row>
  {
    if Ingested(a) then ChartRows(a.aptIdent.value, a.records.value, p) else []
  }

  function AirportsRows(airports: seq<Airport>, p: Params): seq<Row>
  {
    if |airports| == 0 then []
    else AirportsRows(airports[..|airports| - 1], p) + AirportRows(airports[|airports| - 1], p)
  }

  /** A city's rows: its airports' when its state is selected. */
  function CityRows(c: City, stateId: string, p: Params): seq<Row>
  {
    if StateSelected(p.states, stateId) then AirportsRows(c.airports, p) else []
  }

  function CitiesRows(cities: seq<City>, stateId: string, p: Params): seq<Row>
  {
    if |cities| == 0 then []
    else CitiesRows(cities[..|cities| - 1], stateId, p) + CityRows(cities[|cities| - 1], stateId, p)
  }

  function StatesRows(states: seq<State>, p: Params): seq<Row>
  {
    if |states| == 0 then []
    else StatesRows(states[..|states| - 1], p) + CitiesRows(states[|states| - 1].cityNames, states[|states| - 1].id, p)
  }

  /** Every row `parse_data` emits for the document, in emission order. */
  function DocumentRows(doc: DigitalTpp, p: Params): seq<Row>
  {
    StatesRows(doc.stateCodes, p)
  }

  /** `airport_count`: ingested airports of selected states. */
  function AirportsCount(airports: seq<Airport>): nat
  {
    if |airports| == 0 then 0
    else AirportsCount(airports[..|airports| - 1]) + (if Ingested(airports[|airports| - 1]) then 1 else 0)
  }

  function CitiesCount(cities: seq<City>, stateId: string, p: Params): nat
  {
    if |cities| == 0 then 0
    else
      var selected := if StateSelected(p.states, stateId) then AirportsCount(cities[|cities| - 1].airports) else 0;
      CitiesCount(cities[..|cities| - 1], stateId, p) + selected
  }

  function StatesCount(states: seq<State>, p: Params): nat
  {
    if |states| == 0 then 0
    else StatesCount(states[..|states| - 1], p) + CitiesCount(states[|states| - 1].cityNames, states[|states| - 1].id, p)
  }

  function DocumentAirportCount(doc: DigitalTpp, p: Params): nat
  {
    StatesCount(doc.stateCodes, p)
  }

  /** `parse_data`'s loops: states, then cities (testing the state on each
      city), then airports (skipping those without an ident or records),
      then charts, one `update_chart` row per chart. The rows come out in
      emission order; `chartCount` and `airportCount` are its counters. */
  method ParseData(doc: DigitalTpp, p: Params) returns (rows: seq<Row>, chartCount: nat, airportCount: nat)
    ensures rows == DocumentRows(doc, p)
    ensures chartCount == |rows|
    ensures airportCount == DocumentAirportCount(doc, p)
  {
    rows, chartCount, airportCount := [], 0, 0;
    var states := doc.stateCodes;
    for i := 0 to |states|
      invariant rows == StatesRows(states[..i], p)
      invariant chartCount == |rows|
      invariant airportCount == StatesCount(states[..i], p)
    {
      var stateRows, stateAirports := ParseCities(states[i].cityNames, states[i].id, p);
      rows, chartCount, airportCount := rows + stateRows, chartCount + |stateRows|, airportCount + stateAirports;
      assert states[..i + 1][..i] == states[..i];
    }
    assert states[..|states|] == states;
  }

  /** The city loop of one state, with the state test inside it. */
  method ParseCities(cities: seq<City>, stateId: string, p: Params) returns (rows: seq<Row>, airportCount: nat)
    ensures rows == CitiesRows(cities, stateId, p)
    ensures airportCount == CitiesCount(cities, stateId, p)
  {
    rows, airportCount := [], 0;
    for j := 0 to |cities|
      invariant rows == CitiesRows(cities[..j], stateId, p)
      invariant airportCount == CitiesCount(cities[..j], stateId, p)
    {
      var cityRows, cityAirports := [], 0;
      if stateId in p.states || All in p.states {
        cityRows, cityAirports := ParseAirports(cities[j].airports, p);
      }
      rows, airportCount := rows + cityRows, airportCount + cityAirports;
      assert cities[..j + 1][..j] == cities[..j];
    }
    assert cities[..|cities|] == cities;
  }

  /** The airport loop of one selected city. */
  method ParseAirports(airports: seq<Airport>, p: Params) returns (rows: seq<Row>, airportCount: nat)
    ensures rows == AirportsRows(airports, p)
    ensures airportCount == AirportsCount(airports)
  {
    rows, airportCount := [], 0;
    for k := 0 to |airports|
      invariant rows == AirportsRows(airports[..k], p)
      invariant airportCount == AirportsCount(airports[..k])
    {
      var airport := airports[k];
      if airport.aptIdent.Some? && airport.records.Some? {
        airportCount := airportCount + 1;
        var chartRows := ParseCharts(airport.aptIdent.value, airport.records.value, p);
        rows := rows + chartRows;
      }
      assert airports[..k + 1][..k] == airports[..k];
    }
    assert airports[..|airports|] == airports;
  }

  /** The chart loop of one ingested airport. */
  method ParseCharts(apt: string, charts: seq<Chart>, p: Params) returns (rows: seq<Row>)
    ensures rows == ChartRows(apt, charts, p)
  {
    rows := [];
    for m := 0 to |charts|
      invariant rows == ChartRows(apt, charts[..m], p)
    {
      var chart := charts[m];
      var chartType := ChartType(chart.chartCode);
      rows := rows + [Row(ChartId(apt, chartType, chart.chartName), apt, p.cycle, p.startDate,
                          p.endDate, chartType, chart.chartName, ChartUrl(p.cycle, chart.pdfName))];
      assert charts[..m + 1][..m] == charts[..m];
    }
    assert charts[..|charts|] == charts;
  }

  /** Airport `a` emits row `r`: it is ingested and `r` is the row of one of
      its charts. */
  predicate AirportEmits(a: Airport, p: Params, r: Row)
  {
    Ingested(a) && exists ch :: ch in a.records.value && r == ChartRow(a.aptIdent.value, ch, p)
  }

  predicate CityEmits(c: City, p: Params, r: Row)
  {
    exists a :: a in c.airports && AirportEmits(a, p, r)
  }

  /** State `s` emits `r`: it is selected and one of its cities emits `r`. */
  predicate StateEmits(s: State, p: Params, r: Row)
  {
    StateSelected(p.states, s.id) && exists c :: c in s.cityNames && CityEmits(c, p, r)
  }

  lemma {:induction false} ChartRowsMembers(apt: string, charts: seq<Chart>, p: Params, r: Row)
    ensures r in ChartRows(apt, charts, p) <==> exists ch :: ch in charts && r == ChartRow(apt, ch, p)
  {
    if |charts| > 0 {
      var init := charts[..|charts| - 1];
      ChartRowsMembers(apt, init, p, r);
      assert charts == init + [charts[|charts| - 1]];
    }
  }

  lemma {:induction false} AirportsRowsMembers(airports: seq<Airport>, p: Params, r: Row)
    ensures r in AirportsRows(airports, p) <==> exists a :: a in airports && AirportEmits(a, p, r)
  {
    if |airports| > 0 {
      var init, last := airports[..|airports| - 1], airports[|airports| - 1];
      AirportsRowsMembers(init, p, r);
      assert airports == init + [last];
      if Ingested(last) {
        ChartRowsMembers(last.aptIdent.value, last.records.value, p, r);
      }
      if r in AirportsRows(airports, p) {
        if r in AirportsRows(init, p) {
          var a :| a in init && AirportEmits(a, p, r);
          assert a in airports;
        } else {
          assert AirportEmits(last, p, r);
        }
      }
      if exists a :: a in airports && AirportEmits(a, p, r) {
        var a :| a in airports && AirportEmits(a, p, r);
        if a != last {
          assert a in init;
        }
      }
    }
  }

  lemma {:induction false} CitiesRowsMembers(cities: seq<City>, stateId: string, p: Params, r: Row)
    ensures r in CitiesRows(cities, stateId, p) <==>
      StateSelected(p.states, stateId) && exists c :: c in cities && CityEmits(c, p, r)
  {
    if |cities| > 0 {
      var init, last := cities[..|cities| - 1], cities[|cities| - 1];
      CitiesRowsMembers(init, stateId, p, r);
      assert cities == init + [last];
      AirportsRowsMembers(last.airports, p, r);
      if r in CitiesRows(cities, stateId, p) {
        if r in CitiesRows(init, stateId, p) {
          var c :| c in init && CityEmits(c, p, r);
          assert c in cities;
        } else {
          assert CityEmits(last, p, r);
        }
      }
      if StateSelected(p.states, stateId) && exists c :: c in cities && CityEmits(c, p, r) {
        var c :| c in cities && CityEmits(c, p, r);
        if c != last {
          assert c in init;
        }
      }
    }
  }

  lemma {:induction false} StatesRowsMembers(states: seq<State>, p: Params, r: Row)
    ensures r in StatesRows(states, p) <==> exists s :: s in states && StateEmits(s, p, r)
  {
    if |states| > 0 {
      var init, last := states[..|states| - 1], states[|states| - 1];
      StatesRowsMembers(init, p, r);
      assert states == init + [last];
      CitiesRowsMembers(last.cityNames, last.id, p, r);
      if r in StatesRows(states, p) {
        if r in StatesRows(init, p) {
          var s :| s in init && StateEmits(s, p, r);
          assert s in states;
        } else {
          assert StateEmits(last, p, r);
        }
      }
      if exists s :: s in states && StateEmits(s, p, r) {
        var s :| s in states && StateEmits(s, p, r);
        if s != last {
          assert s in init;
        }
      }
    }
  }

  /** A row is emitted exactly when some selected state has a city with an
      ingested airport that has a chart the row is made from. */
  lemma DocumentRowsMembers(doc: DigitalTpp, p: Params, r: Row)
    ensures r in DocumentRows(doc, p) <==> exists s :: s in doc.stateCodes && StateEmits(s, p, r)
  {
    StatesRowsMembers(doc.stateCodes, p, r);
  }

  /** Every emitted row carries the run's cycle and dates, a known chart
      type or `OTHER`, its airport's ident as `airport_id`, an id built from
      that ident, type and name, and a URL under the cycle's directory. */
  lemma EmittedRowFields(doc: DigitalTpp, p: Params, r: Row)
    requires r in DocumentRows(doc, p)
    ensures r.cycle == p.cycle && r.fromDate == p.startDate && r.toDate == p.endDate
    ensures r.chartCode in KnownTypes || r.chartCode == Other
    ensures r.id == ChartId(r.airportId, r.chartCode, r.chartName)
    ensures exists pdf :: r.chartUrl == ChartUrl(p.cycle, pdf)
  {
    DocumentRowsMembers(doc, p, r);
    var s :| s in doc.stateCodes && StateEmits(s, p, r);
    var c :| c in s.cityNames && CityEmits(c, p, r);
    var a :| a in c.airports && AirportEmits(a, p, r);
    var ch :| ch in a.records.value && r == ChartRow(a.aptIdent.value, ch, p);
    assert r.chartUrl == ChartUrl(p.cycle, ch.pdfName);
  }

  /** A state not on the allow-list, when the list has no `ALL`, emits
      nothing, whatever its cities hold. */
  lemma {:induction false} UnselectedStateEmitsNothing(cities: seq<City>, stateId: string, p: Params)
    requires !StateSelected(p.states, stateId)
    ensures CitiesRows(cities, stateId, p) == [] && CitiesCount(cities, stateId, p) == 0
  {
    if |cities| > 0 {
      UnselectedStateEmitsNothing(cities[..|cities| - 1], stateId, p);
    }
  }

  /** The position of the first dash in `x + "-" + rest` when `x` has none. */
  lemma DashAt(x: string, rest: string)
    requires '-' !in x
    ensures var s := x + "-" + rest;
      && |x| < |s| && s[|x|] == '-'
      && (forall i :: 0 <= i < |x| ==> s[i] != '-')
      && s[..|x|] == x && s[|x| + 1..] == rest
  {
    var s := x + "-" + rest;
    forall i | 0 <= i < |x|
      ensures s[i] != '-'
    {
      assert s[i] == x[i];
    }
  }

  /** Text up to the first dash and text after it determine each other. */
  lemma SplitAtDash(x1: string, rest1: string, x2: string, rest2: string)
    requires '-' !in x1 && '-' !in x2
    requires x1 + "-" + rest1 == x2 + "-" + rest2
    ensures x1 == x2 && rest1 == rest2
  {
    DashAt(x1, rest1);
    DashAt(x2, rest2);
    assert |x1| == |x2|;
  }

  /** The id of a row determines its airport, type and name when neither
      the airport ident nor the type contains a dash. */
  lemma ChartIdInjective(a1: string, t1: string, n1: string, a2: string, t2: string, n2: string)
    requires '-' !in a1 && '-' !in a2 && '-' !in t1 && '-' !in t2
    requires ChartId(a1, t1, n1) == ChartId(a2, t2, n2)
    ensures a1 == a2 && t1 == t2 && n1 == n2
  {
    assert ChartId(a1, t1, n1) == "FAA-" + (a1 + "-" + (t1 + "-" + n1));
    assert ChartId(a2, t2, n2) == "FAA-" + (a2 + "-" + (t2 + "-" + n2));
    var tail1, tail2 := a1 + "-" + (t1 + "-" + n1), a2 + "-" + (t2 + "-" + n2);
    assert tail1 == ChartId(a1, t1, n1)[4..];
    assert tail2 == ChartId(a2, t2, n2)[4..];
    SplitAtDash(a1, t1 + "-" + n1, a2, t2 + "-" + n2);
    SplitAtDash(t1, n1, t2, n2);
  }

  /** With a dash in the ident and in the chart name, two different
      airports' charts get the same id: `X-DP`'s approach `N` and `X`'s
      departure `IAP-N`. */
  lemma ChartIdCollision()
    ensures ChartId("X-DP", "IAP", "N") == ChartId("X", "DP", "IAP-N")
  {
  }

  /** An airport with an empty record list is counted but emits nothing; one
      without an ident is neither counted nor emits, whatever its records. */
  lemma CountingExamples(p: Params)
    ensures var a := Airport("1", Some("AUS"), Some([]));
      AirportsRows([a], p) == [] && AirportsCount([a]) == 1
    ensures var b := Airport("2", None, Some([Chart("IAP", "ILS 17", "x.pdf")]));
      AirportsRows([b], p) == [] && AirportsCount([b]) == 0
  {
    var a := Airport("1", Some("AUS"), Some([]));
    var b := Airport("2", None, Some([Chart("IAP", "ILS 17", "x.pdf")]));
    assert [a][..0] == [] && [b][..0] == [];
  }
}

=== FILE: reconcile.dfy ===
/** The store side of one run: the upserts of `parse_data` into one table
    (`update_chart`, which panics on failure), then, only when all of them
    completed, the `DELETE ... WHERE cycle != ?` sweep of a table. Which
    upsert fails, if any, is an input. */
module Reconcile {

  import opened Wrappers
  import opened Ingest
  import opened ChartStore

  /** Table name to table. */
  type Database = map<string, Store>

  /** How the store side ends: a panic in `update_chart`, an error from the
      sweep, or done; each with the database it leaves. */
  datatype StoreOutcome =
    | UpsertPanicked(db: Database)
    | SweepFailed(db: Database)
    | Done(db: Database)

  /** How many upserts complete before the one `failAt` names fails. */
  function Completed(rows: seq<Row>, failAt: Option<nat>): (n: nat)
    ensures n <= |rows|
    ensures n == |rows| <==> failAt.None? || failAt.value >= |rows|
  {
    if failAt.Some? && failAt.value < |rows| then failAt.value else |rows|
  }

  /** Every upsert into `table` completes: the table exists (with no rows
      to write, nothing is attempted) and no upsert fails. */
  predicate WriteCompletes(db: Database, table: string, rows: seq<Row>, failAt: Option<nat>)
  {
    if table in db then Completed(rows, failAt) == |rows| else |rows| == 0
  }

  /** The database after the upserts into `table`: the completed ones take
      effect; a missing table makes the first one fail. */
  function Written(db: Database, table: string, rows: seq<Row>, failAt: Option<nat>): Database
  {
    if table in db then db[table := UpsertAll(db[table], rows[..Completed(rows, failAt)])] else db
  }

  /** The store side of a run: the upserts of `rows` into `table`, then,
      only when all of them completed, the sweep of `sweepTable`. */
  function ApplyRun(db: Database, table: string, sweepTable: string, rows: seq<Row>, cycle: string, failAt: Option<nat>): StoreOutcome
  {
    var db1 := Written(db, table, rows, failAt);
    if !WriteCompletes(db, table, rows, failAt) then UpsertPanicked(db1)
    else if sweepTable !in db1 then SweepFailed(db1)
    else Done(db1[sweepTable := Sweep(db1[sweepTable], cycle)])
  }

  /** A run whose upsert panics never sweeps: every other table is as it
      was, and the written table loses no row; a row no completed upsert
      touched keeps its old columns. */
  lemma PanicSkipsSweep(db: Database, table: string, sweepTable: string, rows: seq<Row>, cycle: string, failAt: Option<nat>)
    requires ApplyRun(db, table, sweepTable, rows, cycle, failAt).UpsertPanicked?
    ensures var db1 := ApplyRun(db, table, sweepTable, rows, cycle, failAt).db;
      && db1.Keys == db.Keys
      && (forall t :: t in db && t != table ==> db1[t] == db[t])
      && (table in db ==>
            var n := Completed(rows, failAt);
            && n < |rows|
            && db[table].Keys <= db1[table].Keys
            && forall id :: id in db[table] && !HasId(rows[..n], id) ==> db1[table][id] == db[table][id])
  {
    if table in db {
      var n := Completed(rows, failAt);
      forall id | id in db[table]
        ensures id in UpsertAll(db[table], rows[..n])
        ensures !HasId(rows[..n], id) ==> UpsertAll(db[table], rows[..n])[id] == db[table][id]
      {
        UpsertAllAt(db[table], rows[..n], id);
      }
    }
  }

  /** What a completed run leaves in the table it wrote when it also swept
      it: every row left is of the run's cycle, every emitted id is present
      with the columns of its last emitted row (bar `airport_id`), and any
      other row left is the untouched old one. */
  lemma CompletedRunState(db: Database, table: string, rows: seq<Row>, cycle: string, failAt: Option<nat>)
    requires AllOfCycle(rows, cycle)
    requires ApplyRun(db, table, table, rows, cycle, failAt).Done?
    ensures table in db
    ensures var db1 := ApplyRun(db, table, table, rows, cycle, failAt).db;
      && table in db1
      && (forall id :: id in db1[table] ==> db1[table][id].cycle == cycle)
      && (forall i :: 0 <= i < |rows| ==>
            && rows[i].id in db1[table]
            && db1[table][rows[i].id].(airportId := rows[i].airportId)
               == LastWith(rows, rows[i].id).(airportId := rows[i].airportId))
      && (forall id :: id in db1[table] && !HasId(rows, id) ==> id in db[table] && db1[table][id] == db[table][id])
  {
    assert Completed(rows, failAt) == |rows| && rows[..|rows|] == rows;
    UpsertThenSweep(db[table], rows, cycle);
  }

  /** A completed run that sweeps a table other than the one it wrote
      leaves every stale row of the written table the document did not
      refresh, and deletes stale rows of the swept table it never wrote. */
  lemma SweepOtherTable(db: Database, table: string, sweepTable: string, rows: seq<Row>, cycle: string)
    requires table != sweepTable && table in db && sweepTable in db
    ensures ApplyRun(db, table, sweepTable, rows, cycle, None).Done?
    ensures var db1 := ApplyRun(db, table, sweepTable, rows, cycle, None).db;
      && db1[table] == UpsertAll(db[table], rows)
      && db1[sweepTable] == Sweep(db[sweepTable], cycle)
      && forall id :: id in db[table] && !HasId(rows, id) ==> id in db1[table] && db1[table][id] == db[table][id]
  {
    assert rows[..|rows|] == rows;
    forall id | id in db[table] && !HasId(rows, id)
      ensures id in UpsertAll(db[table], rows) && UpsertAll(db[table], rows)[id] == db[table][id]
    {
      UpsertAllAt(db[table], rows, id);
    }
  }

  /** Running the store side again with the same rows and failures after
      it completed changes nothing: no duplicate rows, no `airport_id`
      drift, no further deletes. */
  lemma ApplyRunIdempotent(db: Database, table: string, sweepTable: string, rows: seq<Row>, cycle: string, failAt: Option<nat>)
    requires AllOfCycle(rows, cycle)
    requires ApplyRun(db, table, sweepTable, rows, cycle, failAt).Done?
    ensures var db1 := ApplyRun(db, table, sweepTable, rows, cycle, failAt).db;
      ApplyRun(db1, table, sweepTable, rows, cycle, failAt) == Done(db1)
  {
    if table !in db {
      RerunUnwritten(db, table, sweepTable, rows, cycle, failAt);
    } else if table == sweepTable {
      RerunSameTable(db, table, rows, cycle, failAt);
    } else {
      RerunOtherTable(db, table, sweepTable, rows, cycle, failAt);
    }
  }

  /** `ApplyRunIdempotent` when the written table does not exist. */
  lemma RerunUnwritten(db: Database, table: string, sweepTable: string, rows: seq<Row>, cycle: string, failAt: Option<nat>)
    requires table !in db
    requires ApplyRun(db, table, sweepTable, rows, cycle, failAt).Done?
    ensures var db1 := ApplyRun(db, table, sweepTable, rows, cycle, failAt).db;
      ApplyRun(db1, table, sweepTable, rows, cycle, failAt) == Done(db1)
  {
    var db1 := db[sweepTable := Sweep(db[sweepTable], cycle)];
    assert ApplyRun(db, table, sweepTable, rows, cycle, failAt) == Done(db1);
    SweepIdempotent(db[sweepTable], cycle);
    assert db1[sweepTable := Sweep(db1[sweepTable], cycle)] == db1;
  }

  /** When every upsert completes, the written table holds all of them. */
  lemma WriteRowsComplete(db: Database, table: string, rows: seq<Row>, failAt: Option<nat>)
    requires table in db && Completed(rows, failAt) == |rows|
    ensures WriteCompletes(db, table, rows, failAt)
    ensures Written(db, table, rows, failAt) == db[table := UpsertAll(db[table], rows)]
  {
    assert rows[..|rows|] == rows;
  }

  /** A completed run that sweeps the table it wrote. */
  lemma ApplyRunSameTable(db: Database, table: string, rows: seq<Row>, cycle: string, failAt: Option<nat>)
    requires table in db && Completed(rows, failAt) == |rows|
    ensures ApplyRun(db, table, table, rows, cycle, failAt)
         == Done(db[table := Sweep(UpsertAll(db[table], rows), cycle)])
  {
    WriteRowsComplete(db, table, rows, failAt);
    var w := UpsertAll(db[table], rows);
    OverwriteTable(db, table, w, Sweep(w, cycle));
  }

  /** Writing a table twice leaves the second write. */
  lemma OverwriteTable(db: Database, table: string, first: Store, second: Store)
    ensures db[table := first][table := second] == db[table := second]
  {
  }

  /** `ApplyRunIdempotent` when the run sweeps the table it wrote. */
  lemma RerunSameTable(db: Database, table: string, rows: seq<Row>, cycle: string, failAt: Option<nat>)
    requires AllOfCycle(rows, cycle) && table in db
    requires ApplyRun(db, table, table, rows, cycle, failAt).Done?
    ensures var db1 := ApplyRun(db, table, table, rows, cycle, failAt).db;
      ApplyRun(db1, table, table, rows, cycle, failAt) == Done(db1)
  {
    var once := Sweep(UpsertAll(db[table], rows), cycle);
    ApplyRunSameTable(db, table, rows, cycle, failAt);
    var db1 := db[table := once];
    ApplyRunSameTable(db1, table, rows, cycle, failAt);
    UpsertThenSweepIdempotent(db[table], rows, cycle);
    assert db1[table := Sweep(UpsertAll(once, rows), cycle)] == db1;
  }

  /** `ApplyRunIdempotent` when the run sweeps another table. */
  lemma RerunOtherTable(db: Database, table: string, sweepTable: string, rows: seq<Row>, cycle: string, failAt: Option<nat>)
    requires table in db && table != sweepTable
    requires ApplyRun(db, table, sweepTable, rows, cycle, failAt).Done?
    ensures var db1 := ApplyRun(db, table, sweepTable, rows, cycle, failAt).db;
      ApplyRun(db1, table, sweepTable, rows, cycle, failAt) == Done(db1)
  {
    assert Completed(rows, failAt) == |rows|;
    WriteRowsComplete(db, table, rows, failAt);
    var w := UpsertAll(db[table], rows);
    var db1 := db[table := w][sweepTable := Sweep(db[sweepTable], cycle)];
    assert ApplyRun(db, table, sweepTable, rows, cycle, failAt) == Done(db1);
    WriteRowsComplete(db1, table, rows, failAt);
    UpsertAllIdempotent(db[table], rows);
    RewriteTable(db1, table);
    SweepIdempotent(db[sweepTable], cycle);
    RewriteTable(db1, sweepTable);
  }

  /** Writing a table's own contents back changes nothing. */
  lemma RewriteTable(db: Database, table: string)
    requires table in db
    ensures db[table := db[table]] == db
  {
  }
}

=== FILE: states_list.dfy ===
/** The `STATES` setting: a comma-separated allow-list, split with
    `split(',')`. */
module StatesList {

  /** The index of the first comma in `s`. */
  function FirstComma(s: string): (i: nat)
    requires ',' in s
    ensures i < |s| && s[i] == ',' && ',' !in s[..i]
  {
    if s[0] == ',' then 0
    else
      assert ',' in s[1..] by {
        var k :| 0 <= k < |s| && s[k] == ',';
        assert s[1..][k - 1] == ',';
      }
      var j := FirstComma(s[1..]);
      assert s[..j + 1] == [s[0]] + s[1..][..j];
      j + 1
  }

  /** `split(',')`: the pieces between commas, at least one, none holding a
      comma. */
  function SplitComma(s: string): (parts: seq<string>)
    ensures |parts| >= 1
    ensures forall i :: 0 <= i < |parts| ==> ',' !in parts[i]
    decreases |s|
  {
    if ',' in s then
      var i := FirstComma(s);
      [s[..i]] + SplitComma(s[i + 1..])
    else [s]
  }

  /** The pieces joined back with commas. */
  function JoinComma(parts: seq<string>): string
    requires |parts| >= 1
  {
    if |parts| == 1 then parts[0] else parts[0] + "," + JoinComma(parts[1..])
  }

  /** Splitting loses nothing: the pieces join back to the text. */
  lemma {:induction false} JoinSplit(s: string)
    ensures JoinComma(SplitComma(s)) == s
    decreases |s|
  {
    if ',' in s {
      var i := FirstComma(s);
      var parts := SplitComma(s);
      assert parts == [s[..i]] + SplitComma(s[i + 1..]);
      assert parts[0] == s[..i] && parts[1..] == SplitComma(s[i + 1..]);
      JoinSplit(s[i + 1..]);
      assert JoinComma(parts) == s[..i] + "," + s[i + 1..];
      assert s == s[..i] + "," + s[i + 1..];
    }
  }

  /** The first comma of `x + "," + rest`, when `x` has none, follows `x`. */
  lemma {:induction false} FirstCommaAfter(x: string, rest: string)
    requires ',' !in x
    ensures ',' in x + "," + rest && FirstComma(x + "," + rest) == |x|
  {
    var s := x + "," + rest;
    assert s[|x|] == ',';
    if |x| > 0 {
      assert s[1..] == x[1..] + "," + rest;
      assert ',' !in x[1..];
      FirstCommaAfter(x[1..], rest);
    }
  }

  /** Splitting `x + "," + rest`, when `x` has no comma, gives `x` first. */
  lemma SplitCommaAfter(x: string, rest: string)
    requires ',' !in x
    ensures SplitComma(x + "," + rest) == [x] + SplitComma(rest)
  {
    var s := x + "," + rest;
    FirstCommaAfter(x, rest);
    assert s[..|x|] == x;
    assert s[|x| + 1..] == rest;
  }

  /** Pieces without commas are what splitting their join gives back. */
  lemma {:induction false} SplitJoin(parts: seq<string>)
    requires |parts| >= 1 && forall i :: 0 <= i < |parts| ==> ',' !in parts[i]
    ensures SplitComma(JoinComma(parts)) == parts
  {
    if |parts| > 1 {
      var rest := JoinComma(parts[1..]);
      assert JoinComma(parts) == parts[0] + "," + rest;
      SplitJoin(parts[1..]);
      SplitCommaAfter(parts[0], rest);
      assert parts == [parts[0]] + parts[1..];
    }
  }
}

=== FILE: sync.dfy ===
/** One run of the chart parser: the cycle-day gate, the table and state
    settings, the cycle code and dates, the upserts of `parse_data`, then
    the sweep of charts of other cycles. The environment, the clock, the
    metafile and the database are inputs; which upsert fails (if any) is an
    input too. */
module Sync {

  import opened Wrappers
  import opened CivilDate
  import opened DateText
  import opened CycleClock
  import opened ChartDocument
  import opened Ingest
  import opened ChartStore
  import opened Reconcile
  import opened StatesList

  /** The table used when `DB_TABLE` is unset, and the one the sweep names. */
  const DefaultTable: string := "airport_charts"

  /** The environment variables the run reads; `None` when unset. */
  datatype Env = Env(force: Option<string>, dbTable: Option<string>, states: Option<string>)

  /** How a run ends: exit 0 on a day that is not a cycle day without
      `FORCE`, exit 1 without `STATES`, or the end of its store side. */
  datatype Outcome =
    | NotCycleDay
    | NoStates
    | Stored(result: StoreOutcome)

  /** The table the upserts write: `DB_TABLE`, or `airport_charts`. */
  function TableName(env: Env): string
  {
    if env.dbTable.Some? then env.dbTable.value else DefaultTable
  }

  /** The text of today's date the run is started with. */
  predicate RunDate(today: string)
  {
    ParseCanonical(today).Some? && DateOf(today).year >= 1001
  }

  /** The cycle code of the run: `calculate_cycle(&today).unwrap()`, as
      written or with the intended count. */
  function RunCycle(today: string, fixed: bool): (code: string)
    requires RunDate(today)
    ensures CodeInput(code)
  {
    YearPrefixOfCanonical(today);
    var code := if fixed then CalculateCycleFixed(today).value else CalculateCycle(today).value;
    assert code[..4] == code;
    code
  }

  /** The parameters `parse_data` is called with. */
  function RunParams(today: string, states: string, fixed: bool): Params
    requires RunDate(today)
  {
    var cycle := RunCycle(today, fixed);
    var dates := CalculateCycleDates(cycle);
    Params(SplitComma(states), cycle, dates.0, dates.1)
  }

  /** A run, sweeping `sweepTable` (given the upsert table) when every
      upsert completed. */
  function Execute(today: string, env: Env, doc: DigitalTpp, db: Database, failAt: Option<nat>, fixed: bool): Outcome
    requires RunDate(today)
  {
    if !IsCycleDate(DateOf(today)) && env.force.None? then NotCycleDay
    else if env.states.None? then NoStates
    else
      var table := TableName(env);
      var p := RunParams(today, env.states.value, fixed);
      Stored(ApplyRun(db, table, if fixed then table else DefaultTable, DocumentRows(doc, p), p.cycle, failAt))
  }

  /** `main` as written: `calculate_cycle` as written, and the sweep always
      on `airport_charts`, whatever `DB_TABLE` names. */
  function RunAsWritten(today: string, env: Env, doc: DigitalTpp, db: Database, failAt: Option<nat>): Outcome
    requires RunDate(today)
  {
    Execute(today, env, doc, db, failAt, false)
  }

  /** `main` as intended: the intended cycle count, and the sweep on the
      table the upserts wrote. */
  function Run(today: string, env: Env, doc: DigitalTpp, db: Database, failAt: Option<nat>): Outcome
    requires RunDate(today)
  {
    Execute(today, env, doc, db, failAt, true)
  }

  /** Every row `parse_data` emits carries the run's cycle code. */
  lemma RowsOfRunCycle(doc: DigitalTpp, p: Params)
    ensures AllOfCycle(DocumentRows(doc, p), p.cycle)
  {
    var rows := DocumentRows(doc, p);
    forall i | 0 <= i < |rows|
      ensures rows[i].cycle == p.cycle
    {
      EmittedRowFields(doc, p, rows[i]);
    }
  }

  /** A whole run, repeated with the same date, settings, document and
      failures after it completed, changes nothing. */
  lemma RunIdempotent(today: string, env: Env, doc: DigitalTpp, db: Database, failAt: Option<nat>, fixed: bool)
    requires RunDate(today)
    requires Execute(today, env, doc, db, failAt, fixed).Stored?
    requires Execute(today, env, doc, db, failAt, fixed).result.Done?
    ensures var db1 := Execute(today, env, doc, db, failAt, fixed).result.db;
      Execute(today, env, doc, db1, failAt, fixed) == Stored(Done(db1))
  {
    var table := TableName(env);
    var p := RunParams(today, env.states.value, fixed);
    RowsOfRunCycle(doc, p);
    ApplyRunIdempotent(db, table, if fixed then table else DefaultTable, DocumentRows(doc, p), p.cycle, failAt);
  }

  /** As written, with `DB_TABLE` naming another table, the run writes
      that table and sweeps `airport_charts`; as intended it sweeps the
      table it wrote, where then only rows of the run's cycle remain. */
  lemma SweepTables(today: string, env: Env, doc: DigitalTpp, db: Database)
    requires RunDate(today) && env.states.Some? && env.dbTable.Some?
    ensures var t := TableName(env);
      var p := RunParams(today, env.states.value, false);
      var q := RunParams(today, env.states.value, true);
      && (IsCycleDate(DateOf(today)) || env.force.Some? ==>
            && RunAsWritten(today, env, doc, db, None) == Stored(ApplyRun(db, t, DefaultTable, DocumentRows(doc, p), p.cycle, None))
            && Run(today, env, doc, db, None) == Stored(ApplyRun(db, t, t, DocumentRows(doc, q), q.cycle, None)))
  {
  }

  /** The consequence as written: when `DB_TABLE` names another existing
      table, a run on a cycle day (or forced) completes, yet every stale
      row of `DB_TABLE` the document did not refresh is still there, and
      `airport_charts`, which the run never wrote, loses its stale rows. */
  lemma StaleRowsSurvive(today: string, env: Env, doc: DigitalTpp, db: Database)
    requires RunDate(today) && env.states.Some? && env.dbTable.Some?
    requires IsCycleDate(DateOf(today)) || env.force.Some?
    requires TableName(env) != DefaultTable && TableName(env) in db && DefaultTable in db
    ensures var t := TableName(env);
      var p := RunParams(today, env.states.value, false);
      var r := RunAsWritten(today, env, doc, db, None);
      && r.Stored? && r.result.Done?
      && var db1 := r.result.db;
      && t in db1 && DefaultTable in db1
      && db1[DefaultTable] == Sweep(db[DefaultTable], p.cycle)
      && forall id :: id in db[t] && !HasId(DocumentRows(doc, p), id) ==> id in db1[t] && db1[t][id] == db[t][id]
  {
    var t := TableName(env);
    var p := RunParams(today, env.states.value, false);
    var rows := DocumentRows(doc, p);
    var o := ApplyRun(db, t, DefaultTable, rows, p.cycle, None);
    assert RunAsWritten(today, env, doc, db, None) == Stored(o) by {
      SweepTables(today, env, doc, db);
    }
    SweepOtherTable(db, t, DefaultTable, rows, p.cycle);
  }
}

=== FILE: wrappers.dfy ===
/** The optional value Rust's `Option<T>` carries, used for absent fields
    and for operations that may return nothing. */
module Wrappers {

  datatype Option<+T> = None | Some(value: T)

  /** Three-way comparison result, as Rust's `std::cmp::Ordering`. */
  datatype Ordering = Less | Equal | Greater

  /** Three-way comparison of two integers. */
  function CompareInt(a: int, b: int): (o: Ordering)
    ensures o == Less <==> a < b
    ensures o == Equal <==> a == b
    ensures o == Greater <==> a > b
  {
    if a < b then Less else if a == b then Equal else Greater
  }
}
